=== FILE: README.md ===
# FIFF directory tree: building, searching and copying

A model of the directory-tree engine of MNE-Python's FIFF reader
(`mne/_fiff/tree.py`). A FIFF file is a flat run of tags. Its tag directory
lists one descriptor per tag: kind, data type, size and file position.
BLOCK_START and BLOCK_END tags bracket nested blocks. The engine does three
things:

- `make_dir_tree` turns the flat directory into a tree of blocks. Each node
  has a block kind, an identity (`id`, `parent_id`), its direct entries
  (`directory`, `None` when there are none) and its sub-blocks. The call
  returns the node and the index at which its scan stopped.
- `dir_tree_find` lists, in pre-order, the nodes of one block kind.
- `copy_tree` writes nodes into another file. Each node is bracketed by
  start/end block records. Its identity is re-keyed: the output file id
  becomes the block id and the old id becomes the parent id. Every other
  tag is re-read from the source file and passed through unchanged.

Modules:

- `Fiff` holds the shared data model: descriptors, identifiers, nodes, and
  the tag reader.
- `DirTree` models `make_dir_tree` as two mutually recursive functions.
  `Build` opens a node. `Scan` is its loop.
- `Levels` is an independent reading of which entries a node gets. It walks
  the directory keeping a nesting depth.
- `Bounds` covers where the scan stops, and a corrected builder.
- `Find` models `dir_tree_find`.
- `Codec` covers the big-endian tag header.
- `CopyTree` models `copy_tree` as a trace of writer calls.
- `ReadBack` and `RoundTrip` lay a written trace out as a file and rebuild
  it with `make_dir_tree`.

The file handle and `read_tag` become a `Reader`: two functions of the tag
position. One gives the scalar payload (a block kind); the other gives the
identifier payload. The source file read by `copy_tree` is a byte sequence.
The output file is the sequence of writer calls.

## Model

| member | source | states |
|---|---|---|
| DirTree.Build | mne/_fiff/tree.py:46-109 | The node built at `start` has the block kind of its start tag (0 when that tag is not a BLOCK_START). Its stop index is at least `start`, and any stop index inside the directory is a BLOCK_END. The tree is well formed at every node: counters match the lists, `directory` is absent exactly when there are no entries, no sentinel is an entry, and the identities come from the last identity entry of the right kind. |
| DirTree.Scan | mne/_fiff/tree.py:66-96 | The loop resumed at `at` stops no earlier than `at`, inside the directory only at a BLOCK_END, and yields a well-formed node of the block kind it was opened with. |
| DirTree.AddEntry | mne/_fiff/tree.py:77-94 | A plain descriptor is appended to the node's entries in order. The block kind and children are unchanged. The identity invariant still holds: the file id for block 0; the block id and parent block id otherwise. |
| DirTree.Adopt | mne/_fiff/tree.py:69-72 | A finished sub-block is appended as the last child. Entries and identity are unchanged. |
| DirTree.Finish | mne/_fiff/tree.py:98-100 | The closed node is well formed, with `directory` cleared when nothing was collected, and its entries are exactly those collected. |
| DirTree.MakeDirTree | mne/_fiff/tree.py:46-109 | Fails exactly when `start` does not index the directory. This includes every call on an empty directory. Otherwise it returns the built node and stop index. |
| DirTree.BuildPartitions | mne/_fiff/tree.py:66-96 | Every plain descriptor between `start` and the stop index lands in exactly one node of the built tree. Nothing else does. |
| DirTree.ScanRun | mne/_fiff/tree.py:77-96 | A run of plain descriptors is taken in as entries, in order, before the scan moves on. |
| DirTree.LeadingRun | mne/_fiff/tree.py:66-96 | After a BLOCK_START and a run of plain descriptors, the block's scan continues with exactly that run as its entries. |
| Levels.BuildLevels | mne/_fiff/tree.py:66-96 | For every directory, reader and `start`, the direct entries of the built node are exactly what a depth walk keeps. The walk starts after the node's own BLOCK_START and ends at the stop index. It goes one level down at each BLOCK_START and one level up at each BLOCK_END, and keeps the plain descriptors met at depth 0, in order. So a node never holds a sentinel or an entry of a nested block. The stop index, clipped to the directory, is the first BLOCK_END that walk meets at depth 0. The exception is the block-0 root when the scalar at `start` is not 0: no BLOCK_END closes it, and it stops only past the end. |
| Levels.BuildChildren | mne/_fiff/tree.py:67-72 | For every directory, reader and `start`, the children of the built node are exactly the blocks built at the BLOCK_STARTs the same depth walk meets at depth 0, in order: as many children as such BLOCK_STARTs, the k-th child being the block built at the k-th of them. Every one of them lies after `start`, so the node's own BLOCK_START is never built as its own child. Applied to each child in turn, this and `BuildLevels` fix the whole tree. |
| Levels.TwoSubBlocksAreTwoChildren | mne/_fiff/tree.py:67-76 | A block holding two sub-blocks, each with one entry, stops at its own BLOCK_END (index 7) and gets the two sub-blocks as two separate children, built at indices 1 and 4. |
| Levels.BuildCloses | mne/_fiff/tree.py:67-76 | A nested block closes at the first BLOCK_END at its own level, skipping every BLOCK_END consumed by its sub-blocks. When there is none, its stop index is at or past the end of the directory. The block-0 root closes the same way when the scalar at `start` is 0. Otherwise it is never closed by a BLOCK_END. |
| Levels.FirstCloseIsFirst | mne/_fiff/tree.py:67-76 | The reference stop index lies between the walk's start and the directory length. Below the length it is a BLOCK_END met at depth 0. Every BLOCK_END before it is met deeper than 0. |
| Levels.FirstCloseDeeper | mne/_fiff/tree.py:68-72 | A walk entered `k + 1` levels deeper passes the BLOCK_END the shallower walk stops at, and carries on from the next index at depth `k`. This is how a sub-block hides its own BLOCK_ENDs from its parent. |
| Levels.BlockLevels | mne/_fiff/tree.py:67-76 | Everything between a nested BLOCK_START and the BLOCK_END its scan stops at is invisible at the parent's level. After that BLOCK_END the walk is back at the parent's depth. |
| Bounds.BuildBound | mne/_fiff/tree.py:67-109 | The stop index is at least `start` and at most the directory length plus the number of BLOCK_STARTs after `start`. |
| Bounds.DanglingStartOvershoots | mne/_fiff/tree.py:67-109 | The bound is reached. Take a plain tag followed by a BLOCK_START that is never closed: the stop index is `len(directory) + 1`. |
| Bounds.EmptyDirectoryFails | mne/_fiff/tree.py:48 | `make_dir_tree` on an empty directory fails, because the start descriptor is read before the loop. |
| Bounds.Last | mne/_fiff/tree.py:108 | The corrected stop index lies in `[start, len(directory)]`. Below the length it is a BLOCK_END and equals the original index. It equals the length exactly when the original index reached or passed the end. |
| Bounds.MakeDirTreeClipped | mne/_fiff/tree.py:46-109 | The corrected builder succeeds exactly when `start` indexes the directory, or when both are 0. Its stop index never leaves the directory, and its tree is well formed. |
| Bounds.ClippedAgrees | mne/_fiff/tree.py:46-109 | Wherever `make_dir_tree` succeeds, the corrected builder returns the same tree, and the same index unless that index overshot. On an empty directory the original fails and the corrected one returns the empty root. |
| Find.FindIn | mne/_fiff/tree.py:35-41 | The matches in one tree all have the requested kind, and there are no more of them than the tree has nodes. |
| Find.DirTreeFind | mne/_fiff/tree.py:14-42 | Every node returned has the requested block kind. |
| Find.DirTreeFindIsFilteredWalk | mne/_fiff/tree.py:14-42 | The result equals the pre-order walk of the searched trees (each node before its descendants, siblings left to right), filtered by kind. A node is found if and only if it is in the trees and has the kind. The walk has exactly as many positions as the trees have nodes. |
| Find.FindManyConcatenates | mne/_fiff/tree.py:31-33 | Searching a list concatenates the per-tree results, and a single tree is searched as a one-element list. |
| Find.FindInIsPreOrder | mne/_fiff/tree.py:35-41 | The search of one tree is its own pre-order walk filtered by kind. |
| Codec.DecodeHeader | mne/_fiff/tree.py:145 | The four header fields are decoded as signed, unsigned, signed and signed 32-bit values, each in its range. The byte order is stated by `Codec.DecodeHeaderIsBigEndian`. |
| Codec.DecodeHeaderIsBigEndian | mne/_fiff/tree.py:145 | Each 4-byte field is read most significant byte first, with weights 2^24, 2^16, 2^8 and 1. Kind, size and next are the signed readings of their words, and type is the unsigned reading. |
| Codec.HeaderRoundTrip | mne/_fiff/tree.py:145 | Decoding an encoded header gives the header back. |
| Codec.HeaderBytesRoundTrip | mne/_fiff/tree.py:145 | Encoding a decoded 16-byte header gives the bytes back. |
| Codec.Signed32 | mne/_fiff/tree.py:145 | A 32-bit pattern read as `>i4` is the unique value in the signed range congruent to it modulo 2^32. |
| CopyTree.ReadTagAt | mne/_fiff/tree.py:144-146 | Reading a tag fails exactly when the seek position is negative or fewer than 16 bytes remain for the header. A successful read never returns more payload than the file holds after the header. |
| CopyTree.ReadTagAtReadsWritten | mne/_fiff/tree.py:144-146 | A tag laid out as its encoded header followed by its payload reads back as that header and payload, wherever it sits in the file. |
| CopyTree.Kept | mne/_fiff/tree.py:134-141 | No tag the pass-through keeps is BLOCK_ID, PARENT_BLOCK_ID or PARENT_FILE_ID. A descriptor is kept if and only if it is in the directory and not of those three kinds. No more tags are kept than the directory has. |
| CopyTree.KeptAppend | mne/_fiff/tree.py:133-141 | Keeping preserves order: the kept tags of two runs in a row are those of the first run followed by those of the second. Together with the clauses of `Kept`, this fixes the kept list for every directory. |
| CopyTree.PassthroughCopies | mne/_fiff/tree.py:133-147 | The pass-through succeeds if and only if every kept tag can be read. Then it writes exactly the kept tags, in directory order, each as read from the source file. |
| CopyTree.IdEvents | mne/_fiff/tree.py:126-131 | There are no identity records when the node has no id. Otherwise there are three records when an output id is given and two when not. All are identity writes of re-keyed kinds. With an output id, PARENT_FILE_ID with that id comes first. The last two are always BLOCK_ID with the output id (possibly absent), then PARENT_BLOCK_ID with the node's old id. |
| CopyTree.OwnEntries | mne/_fiff/tree.py:133-147 | A node without a directory writes nothing and cannot fail. With a directory, the pass-through succeeds if and only if every kept tag can be read. It then writes exactly the kept tags, in order, as read from the source file. Everything it writes is a raw tag record. |
| CopyTree.CopyTreeIsBalancedPreOrder | mne/_fiff/tree.py:116-152 | When the copy succeeds, every end record closes the innermost open block of its kind and no block is left open. The blocks are started in the pre-order of the copied trees. An empty list writes nothing, and a single node is copied as a one-element list. |
| ReadBack.ReadsBackImage | mne/_fiff/tree.py:46-109 | Take a legible tree of records, written as a file with one tag per record. `make_dir_tree` from the first tag succeeds and stops at the last tag. It finds every block with its kind, its own records in order and its sub-blocks in order, and takes each identity from the last identity record. The corrected builder returns the same. |
| RoundTrip.CopyThenRebuild | mne/_fiff/tree.py:116-152 | Copy a node and rebuild a tree from what was written. `make_dir_tree` succeeds and stops at the last record. It finds every block with its kind, its kept entries in order and its children in order. The identities are re-keyed: the output id becomes the block id and the old id becomes the parent id. The corrected builder returns the same. |

## Left out

- Fiff.Reader: `read_tag` is a pair of total functions of the tag position. As a result, two raising paths are not modelled. `tag.data.item()` raises when a BLOCK_START payload is not a single element (tree.py:50). The closing test `tag.data == block` is ambiguous when the tag at `start` has a multi-element payload, which can happen for the block-0 root (tree.py:74-75).
- DirTree.MakeDirTree: `start` is a natural number, so Python's negative indexing of `directory[start]` (tree.py:48) is not modelled.
- DirTree.Build: Python's recursion-depth limit is not modelled. A directory nested deeper than that limit raises in `make_dir_tree` and builds normally here.
- DirTree.Build: the `indent` argument, the `verbose` decorator and the `logger.debug` calls affect only logging, and are left out.
- CopyTree.CopyTree: only read failures of the source file are modelled. A failing write on the output file is not. The writer calls are modelled as a trace of events, not as bytes.
- CopyTree.CopyTree: a single node is passed as a dict, whose `len` is its number of keys and never 0. The model therefore copies a single node unconditionally.
- RoundTrip.CopyThenRebuild: holds only under these conditions:
  - an output id is given (`in_id` is not `None`);
  - no copied block has kind 0;
  - no entry of a copied node is a BLOCK_START or BLOCK_END;
  - each readable tag header agrees with its descriptor on the kind;
  - a single node is copied.

  It is stated on the event trace laid out one tag per record, not on the bytes `start_block`, `write_id` and `_write` produce.
- The FIFF constants module is not part of this model. The six tag kinds take their FIFF codes, and the proofs use only their distinctness.
- `read_tag` itself and the tag-data decoders behind it are not part of this model. The `Reader` parameter stands for them.

## Findings

| source | as written | input that shows it | evidently intended | confidence | as-written member | corrected member |
|---|---|---|---|---|---|---|
| mne/_fiff/tree.py:67-109 | A block whose BLOCK_END is missing scans to the end and returns `len(directory)`. The parent then steps past it with `this += 1`, so the returned `last` is `len(directory) + 1`: one more for every unclosed level. | `directory = [plain tag, BLOCK_START]`, `start = 0`: the returned `last` is 3 for a directory of length 2. | The returned `last` stays within `[start, len(directory)]`. | medium, not executed | Bounds.DanglingStartOvershoots | Bounds.MakeDirTreeClipped |
| mne/_fiff/tree.py:48 | The start descriptor is read before the loop, so an empty directory raises `IndexError`. | `directory = []`, `start = 0` | An empty directory gives an empty root node (block 0, no entries, no children) with `last = 0`. | low, not executed | Bounds.EmptyDirectoryFails | Bounds.MakeDirTreeClipped |

=== FILE: bounds.dfy ===
/** Where `make_dir_tree` stops.  The returned index can lie one past the end
    of the directory for every block left open when the scan runs off it:
    the child returns `len(directory)` and the parent's `this += 1` moves one
    further.  Also the corrected builder, which never overshoots and accepts
    an empty directory. */
module Bounds {
  import opened Wrappers
  import opened Fiff
  import opened DirTree

  /** Number of BLOCK_START descriptors in `es`. */
  function Opens(es: seq<Descriptor>): nat {
    if |es| == 0 then 0 else (if es[0].kind == BLOCK_START then 1 else 0) + Opens(es[1..])
  }

  /** `Opens(d[i..])`, indexed; zero past the end. */
  function OpensFrom(d: seq<Descriptor>, i: nat): nat
    decreases Remaining(d, i)
  {
    if i >= |d| then 0 else (if d[i].kind == BLOCK_START then 1 else 0) + OpensFrom(d, i + 1)
  }

  lemma {:induction false} OpensFromIsOpens(d: seq<Descriptor>, i: nat)
    requires i <= |d|
    ensures OpensFrom(d, i) == Opens(d[i..])
    decreases |d| - i
  {
    if i < |d| {
      OpensFromIsOpens(d, i + 1);
      assert d[i..][0] == d[i] && d[i..][1..] == d[i + 1..];
    }
  }

  lemma {:induction false} OpensFromShrinks(d: seq<Descriptor>, i: nat, j: nat)
    requires i <= j
    ensures OpensFrom(d, j) <= OpensFrom(d, i)
    decreases j - i
  {
    if i < j {
      OpensFromShrinks(d, i + 1, j);
    }
  }

  /** The bound `ScanBounds` establishes for one resumed scan: it stops where
      it was resumed, or at most one past `|d|` for every block opened from
      `at` on. */
  predicate ScanBounded(r: Reader, d: seq<Descriptor>, start: nat, at: nat, acc: Node)
    requires start < |d| && start <= at
    requires acc.block == BlockOf(r, d, start) && Filling(r, acc)
  {
    var end := Scan(r, d, start, at, acc).1;
    end == at || end <= |d| + OpensFrom(d, at)
  }

  lemma {:induction false} ScanBounds(r: Reader, d: seq<Descriptor>, start: nat, at: nat, acc: Node)
    requires start < |d| && start <= at
    requires acc.block == BlockOf(r, d, start) && Filling(r, acc)
    ensures ScanBounded(r, d, start, at, acc)
    decreases Remaining(d, at), if at == start then 0 else 4
  {
    if Stops(r, d, start, at, acc) {
      StopStep(r, d, start, at, acc);
    } else if d[at].kind == BLOCK_START && at != start {
      ScanChildBounds(r, d, start, at, acc);
    } else if IsSentinel(d[at]) {
      ScanBounds(r, d, start, at + 1, acc);
      SkipBounded(r, d, start, at, acc);
    } else {
      ScanBounds(r, d, start, at + 1, AddEntry(r, acc, d[at]));
      EntryBounded(r, d, start, at, acc);
    }
  }

  /** The nested-block case of `ScanBounds`. */
  lemma {:induction false} ScanChildBounds(r: Reader, d: seq<Descriptor>, start: nat, at: nat, acc: Node)
    requires start < at < |d| && d[at].kind == BLOCK_START
    requires acc.block == BlockOf(r, d, start) && Filling(r, acc)
    ensures ScanBounded(r, d, start, at, acc)
    decreases Remaining(d, at), 3
  {
    BuildBounds(r, d, at);
    ScanBounds(r, d, start, Build(r, d, at).1 + 1, Adopt(r, acc, Build(r, d, at).0));
    ChildBounded(r, d, start, at, acc);
  }

  lemma ChildBounded(r: Reader, d: seq<Descriptor>, start: nat, at: nat, acc: Node)
    requires start < at < |d| && d[at].kind == BLOCK_START
    requires acc.block == BlockOf(r, d, start) && Filling(r, acc)
    requires Build(r, d, at).1 <= |d| + OpensFrom(d, at + 1)
    requires ScanBounded(r, d, start, Build(r, d, at).1 + 1, Adopt(r, acc, Build(r, d, at).0))
    ensures ScanBounded(r, d, start, at, acc)
  {
    ChildStep(r, d, start, at, acc);
    var last := Build(r, d, at).1;
    var end := Scan(r, d, start, last + 1, Adopt(r, acc, Build(r, d, at).0)).1;
    assert Scan(r, d, start, at, acc).1 == end;
    PastChild(d, at, last, end);
  }

  /** The arithmetic of `ChildBounded`. */
  lemma PastChild(d: seq<Descriptor>, at: nat, last: nat, end: nat)
    requires at < |d| && d[at].kind == BLOCK_START && at <= last
    requires last <= |d| + OpensFrom(d, at + 1)
    requires end == last + 1 || end <= |d| + OpensFrom(d, last + 1)
    ensures end <= |d| + OpensFrom(d, at)
  {
    OpensFromShrinks(d, at + 1, last + 1);
  }

  lemma SkipBounded(r: Reader, d: seq<Descriptor>, start: nat, at: nat, acc: Node)
    requires start <= at < |d| && IsSentinel(d[at]) && !Stops(r, d, start, at, acc)
    requires d[at].kind == BLOCK_START ==> at == start
    requires acc.block == BlockOf(r, d, start) && Filling(r, acc)
    requires ScanBounded(r, d, start, at + 1, acc)
    ensures ScanBounded(r, d, start, at, acc)
  {
    SkipStep(r, d, start, at, acc);
    PastOne(d, at, Scan(r, d, start, at + 1, acc).1);
  }

  /** The arithmetic of `SkipBounded` and `EntryBounded`. */
  lemma PastOne(d: seq<Descriptor>, at: nat, end: nat)
    requires at < |d|
    requires end == at + 1 || end <= |d| + OpensFrom(d, at + 1)
    ensures end <= |d| + OpensFrom(d, at)
  {
    OpensFromShrinks(d, at, at + 1);
  }

  lemma EntryBounded(r: Reader, d: seq<Descriptor>, start: nat, at: nat, acc: Node)
    requires start <= at < |d| && !IsSentinel(d[at])
    requires acc.block == BlockOf(r, d, start) && Filling(r, acc)
    requires ScanBounded(r, d, start, at + 1, AddEntry(r, acc, d[at]))
    ensures ScanBounded(r, d, start, at, acc)
  {
    EntryStep(r, d, start, at, acc);
    PastOne(d, at, Scan(r, d, start, at + 1, AddEntry(r, acc, d[at])).1);
  }

  /** The index the builder returns exceeds the directory's length by at
      most the number of blocks opened after `start`. */
  lemma {:induction false} BuildBounds(r: Reader, d: seq<Descriptor>, start: nat)
    requires start < |d|
    ensures Build(r, d, start).1 <= |d| + OpensFrom(d, start + 1)
    decreases Remaining(d, start), 2
  {
    var acc := Fresh(BlockOf(r, d, start), d[start]);
    FreshFills(r, BlockOf(r, d, start), d[start]);
    assert Build(r, d, start) == Scan(r, d, start, start, acc);
    ScanBounds(r, d, start, start, acc);
    if d[start].kind == BLOCK_START {
      OpenStep(r, d, start, acc);
      ScanBounds(r, d, start, start + 1, acc);
    }
  }

  /** `BuildBounds` in terms of the directory slice after `start`. */
  lemma BuildBound(r: Reader, d: seq<Descriptor>, start: nat)
    requires start < |d|
    ensures start <= Build(r, d, start).1 <= |d| + Opens(d[start + 1..])
  {
    BuildBounds(r, d, start);
    OpensFromIsOpens(d, start + 1);
  }

  /** A root entry followed by a BLOCK_START that is never closed. */
  function Dangling(): seq<Descriptor> {
    [Descriptor(1, 0, 0, 0), Descriptor(BLOCK_START, 0, 0, 1)]
  }

  /** The bound is reached on `Dangling()`: the child runs off the end and
      returns `|d|`; the root steps one past it and returns `|d| + 1`. */
  lemma DanglingStartOvershoots(r: Reader)
    ensures Build(r, Dangling(), 0).1 == |Dangling()| + 1 == |Dangling()| + Opens(Dangling()[1..])
  {
    var d := Dangling();
    var root := Fresh(0, d[0]);
    FreshFills(r, 0, d[0]);
    assert Build(r, d, 0) == Scan(r, d, 0, 0, root);
    EntryStep(r, d, 0, 0, root);
    var acc := AddEntry(r, root, d[0]);
    DanglingChild(r);
    ChildStep(r, d, 0, 1, acc);
    assert Scan(r, d, 0, 3, Adopt(r, acc, Build(r, d, 1).0)).1 == 3;
    assert d[1..] == [d[1]];
  }

  /** The unclosed child of `Dangling()` stops at the end of the directory. */
  lemma DanglingChild(r: Reader)
    ensures Build(r, Dangling(), 1).1 == 2
  {
    var d := Dangling();
    var child := Fresh(BlockOf(r, d, 1), d[1]);
    FreshFills(r, BlockOf(r, d, 1), d[1]);
    assert Build(r, d, 1) == Scan(r, d, 1, 1, child);
    OpenStep(r, d, 1, child);
  }

  /** `make_dir_tree` given an empty directory indexes past its end and
      raises, although an empty file has an empty root. */
  lemma EmptyDirectoryFails(r: Reader)
    ensures MakeDirTree(r, [], 0).Failure?
  {
  }

  /** The index the corrected builder returns: the one `Build` returns,
      clipped to the directory. */
  function Last(r: Reader, d: seq<Descriptor>, start: nat): (last: nat)
    requires start < |d|
    ensures start <= last <= |d|
    ensures last < |d| ==> d[last].kind == BLOCK_END && last == Build(r, d, start).1
    ensures last == |d| <==> Build(r, d, start).1 >= |d|
  {
    if Build(r, d, start).1 < |d| then Build(r, d, start).1 else |d|
  }

  /** The root of an empty file: block 0, no identity, no entries, no
      children. */
  function EmptyRoot(): (n: Node)
    ensures n.block == 0 && Entries(n) == [] && n.children == []
  {
    Node(0, None, None, 0, 0, None, [])
  }

  /** `make_dir_tree` as intended: an empty directory yields the empty root,
      and the returned index never leaves the directory. */
  function MakeDirTreeClipped(r: Reader, d: seq<Descriptor>, start: nat): (res: Result<(Node, nat), BuildError>)
    ensures res.Success? <==> start < |d| || start == |d| == 0
    ensures res.Success? ==> start <= res.value.1 <= |d| && Built(r, res.value.0)
  {
    if start < |d| then Success((Build(r, d, start).0, Last(r, d, start)))
    else if start == |d| == 0 then Success((EmptyRoot(), 0))
    else Failure(StartOutOfRange(start, |d|))
  }

  /** Wherever `make_dir_tree` succeeds, the corrected builder returns the
      same tree, and the same index unless that index overshot. */
  lemma ClippedAgrees(r: Reader, d: seq<Descriptor>, start: nat)
    ensures MakeDirTree(r, d, start).Success? ==>
              && MakeDirTreeClipped(r, d, start).Success?
              && MakeDirTreeClipped(r, d, start).value.0 == MakeDirTree(r, d, start).value.0
              && (MakeDirTree(r, d, start).value.1 <= |d| ==>
                    MakeDirTreeClipped(r, d, start).value.1 == MakeDirTree(r, d, start).value.1)
    ensures |d| == 0 ==> MakeDirTree(r, d, 0).Failure? && MakeDirTreeClipped(r, d, 0) == Success((EmptyRoot(), 0))
  {
  }
}

=== FILE: codec.dfy ===
/** The big-endian wire layout of a tag header: four 32-bit fields (kind,
    type, size, next), kind, size and next signed and type unsigned,
    followed by `size` payload bytes. */
module Codec {
  import opened Fiff

  const HEADER_SIZE: nat := 16

  function Pow256(k: nat): (p: nat)
    ensures p > 0
  {
    if k == 0 then 1 else 256 * Pow256(k - 1)
  }

  /** The unsigned value of a big-endian byte string. */
  function FromBigEndian(b: seq<byte>): (n: nat)
    ensures n < Pow256(|b|)
  {
    if |b| == 0 then 0
    else FromBigEndian(b[..|b| - 1]) * 256 + b[|b| - 1] as nat
  }

  /** The low `k` bytes of `n`, most significant first. */
  function ToBigEndian(n: nat, k: nat): (b: seq<byte>)
    ensures |b| == k
  {
    if k == 0 then [] else ToBigEndian(n / 256, k - 1) + [(n % 256) as byte]
  }

  lemma {:induction false} FromToBigEndian(n: nat, k: nat)
    requires n < Pow256(k)
    ensures FromBigEndian(ToBigEndian(n, k)) == n
  {
    if k > 0 {
      var b := ToBigEndian(n, k);
      assert b[..k - 1] == ToBigEndian(n / 256, k - 1);
      FromToBigEndian(n / 256, k - 1);
    }
  }

  lemma {:induction false} ToFromBigEndian(b: seq<byte>)
    ensures ToBigEndian(FromBigEndian(b), |b|) == b
  {
    if |b| > 0 {
      var init, last := b[..|b| - 1], b[|b| - 1] as nat;
      var n := FromBigEndian(b);
      assert n / 256 == FromBigEndian(init) && n % 256 == last;
      ToFromBigEndian(init);
      assert b == init + [last as byte];
    }
  }

  /** Two's-complement reading of an unsigned 32-bit value. */
  function Signed32(u: nat): (v: int)
    requires u < 0x1_0000_0000
    ensures -0x8000_0000 <= v < 0x8000_0000
    ensures v % 0x1_0000_0000 == u
  {
    if u < 0x8000_0000 then u else u - 0x1_0000_0000
  }

  function Unsigned32(v: int): (u: nat)
    requires -0x8000_0000 <= v < 0x8000_0000
    ensures u < 0x1_0000_0000 && Signed32(u) == v
  {
    if v < 0 then v + 0x1_0000_0000 else v
  }

  datatype Header = Header(kind: int, typ: int, size: int, next: int)

  predicate Representable(h: Header) {
    && -0x8000_0000 <= h.kind < 0x8000_0000
    && 0 <= h.typ < 0x1_0000_0000
    && -0x8000_0000 <= h.size < 0x8000_0000
    && -0x8000_0000 <= h.next < 0x8000_0000
  }

  function I32(b: seq<byte>): int
    requires |b| == 4
  {
    assert Pow256(4) == 0x1_0000_0000;
    Signed32(FromBigEndian(b))
  }

  /** Reads the `>i4,>I4,>i4,>i4` record at the front of `b`. */
  function DecodeHeader(b: seq<byte>): (h: Header)
    requires |b| == HEADER_SIZE
    ensures Representable(h)
  {
    assert Pow256(4) == 0x1_0000_0000;
    Header(I32(b[0..4]), FromBigEndian(b[4..8]), I32(b[8..12]), I32(b[12..16]))
  }

  /** The 32-bit word at `b[i..i + 4]`, most significant byte first. */
  function Word(b: seq<byte>, i: nat): (w: nat)
    requires i + 4 <= |b|
    ensures w < 0x1_0000_0000
  {
    b[i] as nat * 0x100_0000 + b[i + 1] as nat * 0x1_0000 + b[i + 2] as nat * 0x100 + b[i + 3] as nat
  }

  /** Four bytes read by `FromBigEndian` weigh 2^24, 2^16, 2^8 and 1, in
      that order. */
  lemma BigEndian4(b: seq<byte>)
    requires |b| == 4
    ensures FromBigEndian(b) == Word(b, 0)
  {
    var x0, x1, x2, x3 := b[0] as nat, b[1] as nat, b[2] as nat, b[3] as nat;
    assert FromBigEndian(b[..1]) == x0 by {
      assert b[..1][..0] == [];
    }
    assert FromBigEndian(b[..2]) == x0 * 256 + x1 by {
      assert b[..2][..1] == b[..1];
    }
    assert FromBigEndian(b[..3]) == (x0 * 256 + x1) * 256 + x2 by {
      assert b[..3][..2] == b[..2];
    }
    assert FromBigEndian(b) == ((x0 * 256 + x1) * 256 + x2) * 256 + x3 by {
      assert b[..3] == b[..|b| - 1];
    }
  }

  /** Each header field is read big-endian: kind, size and next as signed
      words, type as an unsigned word. */
  lemma DecodeHeaderIsBigEndian(b: seq<byte>)
    requires |b| == HEADER_SIZE
    ensures DecodeHeader(b) == Header(Signed32(Word(b, 0)), Word(b, 4), Signed32(Word(b, 8)), Signed32(Word(b, 12)))
  {
    BigEndian4(b[0..4]);
    BigEndian4(b[4..8]);
    BigEndian4(b[8..12]);
    BigEndian4(b[12..16]);
  }

  function EncodeHeader(h: Header): (b: seq<byte>)
    requires Representable(h)
    ensures |b| == HEADER_SIZE
  {
    ToBigEndian(Unsigned32(h.kind), 4) + ToBigEndian(h.typ, 4)
    + ToBigEndian(Unsigned32(h.size), 4) + ToBigEndian(Unsigned32(h.next), 4)
  }

  /** Decoding undoes encoding: every representable header survives the
      wire layout. */
  lemma HeaderRoundTrip(h: Header)
    requires Representable(h)
    ensures DecodeHeader(EncodeHeader(h)) == h
  {
    var b := EncodeHeader(h);
    assert Pow256(4) == 0x1_0000_0000;
    assert b[0..4] == ToBigEndian(Unsigned32(h.kind), 4);
    assert b[4..8] == ToBigEndian(h.typ, 4);
    assert b[8..12] == ToBigEndian(Unsigned32(h.size), 4);
    assert b[12..16] == ToBigEndian(Unsigned32(h.next), 4);
    FromToBigEndian(Unsigned32(h.kind), 4);
    FromToBigEndian(h.typ, 4);
    FromToBigEndian(Unsigned32(h.size), 4);
    FromToBigEndian(Unsigned32(h.next), 4);
  }

  /** Encoding undoes decoding: the 16 header bytes are determined by the
      four fields read from them. */
  lemma HeaderBytesRoundTrip(b: seq<byte>)
    requires |b| == HEADER_SIZE
    ensures EncodeHeader(DecodeHeader(b)) == b
  {
    assert Pow256(4) == 0x1_0000_0000;
    forall i | 0 <= i < 4
      ensures Unsigned32(I32(b[4 * i..4 * i + 4])) == FromBigEndian(b[4 * i..4 * i + 4])
    {
    }
    ToFromBigEndian(b[0..4]);
    ToFromBigEndian(b[4..8]);
    ToFromBigEndian(b[8..12]);
    ToFromBigEndian(b[12..16]);
    assert b == b[0..4] + b[4..8] + b[8..12] + b[12..16];
  }
}

=== FILE: copy_tree.dfy ===
/** `copy_tree`: writes tree nodes into a new file as a trace of writer
    calls.  Each node is bracketed by start/end block records, its identity
    is re-keyed, and every other tag is passed through byte for byte. */
module CopyTree {
  import opened Wrappers
  import opened Fiff
  import opened Codec
  import opened Find

  /** One call on the output file: `start_block`, `write_id`, `_write` of a
      raw tag, `end_block`.  `WriteId` keeps the value as passed, `None`
      included. */
  datatype Event =
    | StartBlock(block: int)
    | WriteId(kind: int, value: Option<Ident>)
    | Raw(kind: int, typ: int, data: seq<byte>)
    | EndBlock(block: int)

  /** Why reading a tag back from the source file failed. */
  datatype ReadError =
    | SeekBeforeStart(pos: int)   // seek to a negative offset
    | HeaderCutShort(pos: int)    // fewer than 16 bytes left for the header

  /** What a copy wrote, and the error that stopped it, if any.  Nothing is
      rolled back: the events written before a failure stay. */
  datatype Written = Written(events: seq<Event>, failure: Option<ReadError>)

  const Nothing := Written([], None)

  /** `a`, then `b` unless `a` failed. */
  function Then(a: Written, b: Written): (w: Written)
    ensures a.failure.Some? ==> w == a
    ensures a.failure.None? ==> w.events == a.events + b.events && w.failure == b.failure
  {
    if a.failure.Some? then a else Written(a.events + b.events, b.failure)
  }

  /** Seek to `pos`, read one `>i4,>I4,>i4,>i4` header, then read `size`
      payload bytes.  A negative size reads the rest of the file and a
      payload cut short by the end of the file is returned short, as a
      counted numpy read does. */
  function ReadTagAt(src: seq<byte>, pos: int): (res: Result<(Header, seq<byte>), ReadError>)
    ensures res.Failure? <==> pos < 0 || pos + HEADER_SIZE > |src|
    ensures res.Success? ==> |res.value.1| <= |src| - pos - HEADER_SIZE
  {
    if pos < 0 then Failure(SeekBeforeStart(pos))
    else if pos + HEADER_SIZE > |src| then Failure(HeaderCutShort(pos))
    else
      var h := DecodeHeader(src[pos..pos + HEADER_SIZE]);
      var from := pos + HEADER_SIZE;
      var data := if h.size < 0 || from + h.size > |src| then src[from..] else src[from..from + h.size];
      Success((h, data))
  }

  /** A tag written as header then payload is read back unchanged. */
  lemma ReadTagAtReadsWritten(pre: seq<byte>, h: Header, payload: seq<byte>, post: seq<byte>)
    requires Representable(h) && h.size == |payload|
    ensures ReadTagAt(pre + EncodeHeader(h) + payload + post, |pre|) == Success((h, payload))
  {
    var src := pre + EncodeHeader(h) + payload + post;
    var pos := |pre|;
    assert src[pos..pos + HEADER_SIZE] == EncodeHeader(h);
    HeaderRoundTrip(h);
    assert src[pos + HEADER_SIZE..pos + HEADER_SIZE + h.size] == payload;
  }

  /** The entries the copier passes through: all but the re-keyed kinds. */
  function Kept(es: seq<Descriptor>): (k: seq<Descriptor>)
    ensures forall i :: 0 <= i < |k| ==> !IsRekeyed(k[i].kind)
    ensures forall e :: e in k <==> e in es && !IsRekeyed(e.kind)
    ensures |k| <= |es|
  {
    if |es| == 0 then []
    else
      assert es == [es[0]] + es[1..];
      if IsRekeyed(es[0].kind) then Kept(es[1..])
      else [es[0]] + Kept(es[1..])
  }

  /** Filtering keeps order: the kept entries of two runs in a row are
      those of the first run followed by those of the second.  With the
      membership and length clauses of `Kept`, this fixes `Kept` on every
      input. */
  lemma {:induction false} KeptAppend(a: seq<Descriptor>, b: seq<Descriptor>)
    ensures Kept(a + b) == Kept(a) + Kept(b)
  {
    if |a| == 0 {
      assert a + b == b;
    } else {
      assert (a + b)[0] == a[0] && (a + b)[1..] == a[1..] + b;
      KeptAppend(a[1..], b);
    }
  }

  /** The header of a readable tag. */
  function HeaderAt(src: seq<byte>, e: Descriptor): Header
    requires Readable(src, e)
  {
    DecodeHeader(src[e.pos..e.pos + HEADER_SIZE])
  }

  /** The raw record written for a tag read from the source file. */
  function RawOf(tag: (Header, seq<byte>)): Event {
    Raw(tag.0.kind, tag.0.typ, tag.1)
  }

  /** The header of the tag `e` lies inside the source file. */
  predicate Readable(src: seq<byte>, e: Descriptor) {
    0 <= e.pos && e.pos + HEADER_SIZE <= |src|
  }

  /** The pass-through loop over a node's entries: BLOCK_ID, PARENT_BLOCK_ID
      and PARENT_FILE_ID entries are dropped, every other tag is re-read
      from the source file and written out as read. */
  function Passthrough(src: seq<byte>, es: seq<Descriptor>): (w: Written) {
    if |es| == 0 then Nothing
    else if IsRekeyed(es[0].kind) then Passthrough(src, es[1..])
    else match ReadTagAt(src, es[0].pos)
      case Failure(e) => Written([], Some(e))
      case Success(tag) => Then(Written([RawOf(tag)], None), Passthrough(src, es[1..]))
  }

  /** Every tag of `ks` can be read from the source file. */
  predicate AllReadable(src: seq<byte>, ks: seq<Descriptor>) {
    forall i :: 0 <= i < |ks| ==> Readable(src, ks[i])
  }

  /** `evs` are the tags `ks` read from the source file, one raw record each,
      in order. */
  predicate CopiesOf(src: seq<byte>, ks: seq<Descriptor>, evs: seq<Event>)
    requires AllReadable(src, ks)
  {
    |evs| == |ks| && forall i :: 0 <= i < |evs| ==> evs[i] == RawOf(ReadTagAt(src, ks[i].pos).value)
  }

  /** The pass-through succeeds exactly when every kept tag is readable,
      and then it writes exactly the kept tags, as read, in order. */
  lemma {:induction false} PassthroughCopies(src: seq<byte>, es: seq<Descriptor>)
    ensures Passthrough(src, es).failure.None? <==> AllReadable(src, Kept(es))
    ensures Passthrough(src, es).failure.None? ==> CopiesOf(src, Kept(es), Passthrough(src, es).events)
    decreases |es|
  {
    if |es| > 0 {
      PassthroughCopies(src, es[1..]);
      if IsRekeyed(es[0].kind) {
        assert Kept(es) == Kept(es[1..]);
      } else {
        KeptStep(src, es);
      }
    }
  }

  /** One tag that is not re-keyed: read and written, or the copy stops. */
  lemma KeptStep(src: seq<byte>, es: seq<Descriptor>)
    requires |es| > 0 && !IsRekeyed(es[0].kind)
    requires Passthrough(src, es[1..]).failure.None? <==> AllReadable(src, Kept(es[1..]))
    requires Passthrough(src, es[1..]).failure.None? ==> CopiesOf(src, Kept(es[1..]), Passthrough(src, es[1..]).events)
    ensures Passthrough(src, es).failure.None? <==> AllReadable(src, Kept(es))
    ensures Passthrough(src, es).failure.None? ==> CopiesOf(src, Kept(es), Passthrough(src, es).events)
  {
    var ks, rest := Kept(es), Passthrough(src, es[1..]);
    assert ks == [es[0]] + Kept(es[1..]);
    ReadableCons(src, es[0], Kept(es[1..]));
    if Readable(src, es[0]) {
      var ev := RawOf(ReadTagAt(src, es[0].pos).value);
      assert Passthrough(src, es) == Then(Written([ev], None), rest);
      if rest.failure.None? {
        CopiesCons(src, es[0], Kept(es[1..]), ev, rest.events);
      }
    }
  }

  lemma ReadableCons(src: seq<byte>, e: Descriptor, ks: seq<Descriptor>)
    ensures AllReadable(src, [e] + ks) <==> Readable(src, e) && AllReadable(src, ks)
  {
    assert ([e] + ks)[0] == e;
    assert forall i :: 0 <= i < |ks| ==> ([e] + ks)[i + 1] == ks[i];
  }

  /** One more tag read in front of a run of copies. */
  lemma CopiesCons(src: seq<byte>, e: Descriptor, ks: seq<Descriptor>, ev: Event, evs: seq<Event>)
    requires Readable(src, e) && AllReadable(src, ks) && CopiesOf(src, ks, evs)
    requires ev == RawOf(ReadTagAt(src, e.pos).value)
    ensures AllReadable(src, [e] + ks) && CopiesOf(src, [e] + ks, [ev] + evs)
  {
    ReadableCons(src, e, ks);
    var ks', evs' := [e] + ks, [ev] + evs;
    forall i | 0 <= i < |evs'|
      ensures evs'[i] == RawOf(ReadTagAt(src, ks'[i].pos).value)
    {
      if i > 0 {
        assert evs'[i] == evs[i - 1] && ks'[i] == ks[i - 1];
      }
    }
  }

  /** The re-keyed identity of a copied block: present only when the node
      had an id; PARENT_FILE_ID only when an output id is given. */
  function IdEvents(inId: Option<Ident>, n: Node): (ev: seq<Event>)
    ensures |ev| == if n.id.None? then 0 else if inId.Some? then 3 else 2
    ensures forall i :: 0 <= i < |ev| ==> ev[i].WriteId? && IsRekeyed(ev[i].kind)
    ensures n.id.Some? && inId.Some? ==> ev[0] == WriteId(PARENT_FILE_ID, inId)
    ensures n.id.Some? ==> ev[|ev| - 2] == WriteId(BLOCK_ID, inId) && ev[|ev| - 1] == WriteId(PARENT_BLOCK_ID, n.id)
  {
    if n.id.None? then []
    else
      (if inId.Some? then [WriteId(PARENT_FILE_ID, inId)] else [])
      + [WriteId(BLOCK_ID, inId), WriteId(PARENT_BLOCK_ID, n.id)]
  }

  /** The pass-through of a node's entries; nothing when its directory is
      absent. */
  function OwnEntries(src: seq<byte>, n: Node): (w: Written)
    ensures n.directory.None? ==> w == Nothing
    ensures n.directory.Some? ==> (w.failure.None? <==> AllReadable(src, Kept(n.directory.value)))
    ensures n.directory.Some? && w.failure.None? ==>
              AllReadable(src, Kept(n.directory.value)) && CopiesOf(src, Kept(n.directory.value), w.events)
    ensures w.failure.None? ==> forall i :: 0 <= i < |w.events| ==> w.events[i].Raw?
  {
    if n.directory.Some? then
      PassthroughCopies(src, n.directory.value);
      Passthrough(src, n.directory.value)
    else Nothing
  }

  /** One node: start record, identity, pass-through entries, children in
      order, end record. */
  function CopyNode(src: seq<byte>, inId: Option<Ident>, n: Node): Written
    decreases n, 1
  {
    var head := Written([StartBlock(n.block)] + IdEvents(inId, n), None);
    Then(head, Then(OwnEntries(src, n), Then(CopyAll(src, inId, n.children), Written([EndBlock(n.block)], None))))
  }

  function CopyAll(src: seq<byte>, inId: Option<Ident>, ns: seq<Node>): Written
    decreases ns, 0
  {
    if |ns| == 0 then Nothing else Then(CopyNode(src, inId, ns[0]), CopyAll(src, inId, ns[1..]))
  }

  /** `copy_tree(fidin, in_id, nodes, fidout)`: an empty list writes
      nothing, a lone node is copied as a one-element list. */
  function CopyTree(src: seq<byte>, inId: Option<Ident>, nodes: Roots): Written {
    match nodes
    case Many(ns) => if |ns| <= 0 then Nothing else CopyAll(src, inId, ns)
    case One(n) => CopyAll(src, inId, [n])
  }

  /** Replays the block records of a trace against a stack of open blocks:
      a start pushes its kind, an end must close the innermost open block
      of the same kind.  `None` when an end does not match. */
  function Unwind(s: seq<Event>, open: seq<int>): Option<seq<int>> {
    if |s| == 0 then Some(open)
    else match s[0]
      case StartBlock(k) => Unwind(s[1..], open + [k])
      case EndBlock(k) =>
        if |open| > 0 && open[|open| - 1] == k then Unwind(s[1..], open[..|open| - 1]) else None
      case _ => Unwind(s[1..], open)
  }

  predicate IsBracket(e: Event) {
    e.StartBlock? || e.EndBlock?
  }

  lemma {:induction false} UnwindSkipsRecords(s: seq<Event>, rest: seq<Event>, open: seq<int>)
    requires forall i :: 0 <= i < |s| ==> !IsBracket(s[i])
    ensures Unwind(s + rest, open) == Unwind(rest, open)
  {
    if |s| > 0 {
      assert (s + rest)[1..] == s[1..] + rest;
      UnwindSkipsRecords(s[1..], rest, open);
    } else {
      assert s + rest == rest;
    }
  }

  /** The pieces a successful node copy is made of. */
  lemma CopyNodeParts(src: seq<byte>, inId: Option<Ident>, n: Node)
    requires CopyNode(src, inId, n).failure.None?
    ensures OwnEntries(src, n).failure.None? && CopyAll(src, inId, n.children).failure.None?
    ensures CopyNode(src, inId, n).events
         == ([StartBlock(n.block)] + IdEvents(inId, n)) + OwnEntries(src, n).events
            + CopyAll(src, inId, n.children).events + [EndBlock(n.block)]
  {
    var head := Written([StartBlock(n.block)] + IdEvents(inId, n), None);
    var own, kids, foot := OwnEntries(src, n), CopyAll(src, inId, n.children), Written([EndBlock(n.block)], None);
    var inner := Then(kids, foot);
    var body := Then(own, inner);
    assert CopyNode(src, inId, n) == Then(head, body);
    assert head.events + (own.events + (kids.events + foot.events))
        == head.events + own.events + kids.events + foot.events;
  }

  /** Concatenation regrouped; the rewriting `BlockNests` needs four times. */
  lemma SeqAssoc<T>(a: seq<T>, b: seq<T>, c: seq<T>)
    ensures (a + b) + c == a + (b + c)
  {
  }

  lemma UnwindStart(k: int, s: seq<Event>, open: seq<int>)
    ensures Unwind([StartBlock(k)] + s, open) == Unwind(s, open + [k])
  {
    assert ([StartBlock(k)] + s)[1..] == s;
  }

  lemma UnwindEnd(k: int, s: seq<Event>, open: seq<int>)
    ensures Unwind([EndBlock(k)] + s, open + [k]) == Unwind(s, open)
  {
    assert ([EndBlock(k)] + s)[1..] == s;
    assert (open + [k])[..|open|] == open;
  }

  /** A start record, plain records, well-nested content and the matching
      end record form one well-nested block. */
  lemma BlockNests(k: int, ids: seq<Event>, raws: seq<Event>, inner: seq<Event>, rest: seq<Event>, open: seq<int>)
    requires forall i :: 0 <= i < |ids| ==> !IsBracket(ids[i])
    requires forall i :: 0 <= i < |raws| ==> !IsBracket(raws[i])
    requires Unwind(inner + ([EndBlock(k)] + rest), open + [k]) == Unwind([EndBlock(k)] + rest, open + [k])
    ensures Unwind(([StartBlock(k)] + ids) + raws + inner + [EndBlock(k)] + rest, open) == Unwind(rest, open)
  {
    var tail := [EndBlock(k)] + rest;
    var records := ids + raws;
    var head := ([StartBlock(k)] + ids) + raws;
    SeqAssoc(head + inner, [EndBlock(k)], rest);
    SeqAssoc(head, inner, tail);
    SeqAssoc([StartBlock(k)], ids, raws);
    SeqAssoc([StartBlock(k)], records, inner + tail);
    UnwindStart(k, records + (inner + tail), open);
    UnwindSkipsRecords(records, inner + tail, open + [k]);
    UnwindEnd(k, rest, open);
  }

  /** A successfully copied node is one well-nested block: replaying it
      leaves the stack of open blocks as it found it. */
  lemma {:induction false} CopyNodeNests(src: seq<byte>, inId: Option<Ident>, n: Node, rest: seq<Event>, open: seq<int>)
    requires CopyNode(src, inId, n).failure.None?
    ensures Unwind(CopyNode(src, inId, n).events + rest, open) == Unwind(rest, open)
    decreases n, 1
  {
    CopyNodeParts(src, inId, n);
    var kids := CopyAll(src, inId, n.children).events;
    CopyAllNests(src, inId, n.children, [EndBlock(n.block)] + rest, open + [n.block]);
    BlockNests(n.block, IdEvents(inId, n), OwnEntries(src, n).events, kids, rest, open);
  }

  lemma CopyAllParts(src: seq<byte>, inId: Option<Ident>, ns: seq<Node>)
    requires |ns| > 0 && CopyAll(src, inId, ns).failure.None?
    ensures CopyNode(src, inId, ns[0]).failure.None? && CopyAll(src, inId, ns[1..]).failure.None?
    ensures CopyAll(src, inId, ns).events == CopyNode(src, inId, ns[0]).events + CopyAll(src, inId, ns[1..]).events
  {
  }

  lemma {:induction false} CopyAllNests(src: seq<byte>, inId: Option<Ident>, ns: seq<Node>, rest: seq<Event>, open: seq<int>)
    requires CopyAll(src, inId, ns).failure.None?
    ensures Unwind(CopyAll(src, inId, ns).events + rest, open) == Unwind(rest, open)
    decreases ns, 0
  {
    if |ns| > 0 {
      CopyAllParts(src, inId, ns);
      var first, others := CopyNode(src, inId, ns[0]), CopyAll(src, inId, ns[1..]);
      SeqAssoc(first.events, others.events, rest);
      CopyNodeNests(src, inId, ns[0], others.events + rest, open);
      CopyAllNests(src, inId, ns[1..], rest, open);
    } else {
      assert CopyAll(src, inId, ns).events + rest == rest;
    }
  }

  /** The block kinds of the start records of a trace, in order. */
  function StartedBlocks(s: seq<Event>): seq<int> {
    if |s| == 0 then []
    else if s[0].StartBlock? then [s[0].block] + StartedBlocks(s[1..])
    else StartedBlocks(s[1..])
  }

  lemma {:induction false} StartedBlocksAppend(a: seq<Event>, b: seq<Event>)
    ensures StartedBlocks(a + b) == StartedBlocks(a) + StartedBlocks(b)
  {
    if |a| == 0 {
      assert a + b == b;
    } else {
      assert (a + b)[1..] == a[1..] + b;
      StartedBlocksAppend(a[1..], b);
    }
  }

  lemma {:induction false} NoStartedBlocks(s: seq<Event>)
    requires forall i :: 0 <= i < |s| ==> !IsBracket(s[i])
    ensures StartedBlocks(s) == []
  {
    if |s| > 0 {
      NoStartedBlocks(s[1..]);
    }
  }

  function BlocksOf(ns: seq<Node>): (ks: seq<int>)
    ensures |ks| == |ns| && forall i :: 0 <= i < |ns| ==> ks[i] == ns[i].block
  {
    if |ns| == 0 then [] else [ns[0].block] + BlocksOf(ns[1..])
  }

  lemma {:induction false} BlocksOfAppend(a: seq<Node>, b: seq<Node>)
    ensures BlocksOf(a + b) == BlocksOf(a) + BlocksOf(b)
  {
    assert |BlocksOf(a + b)| == |BlocksOf(a) + BlocksOf(b)|;
    forall i | 0 <= i < |a + b|
      ensures BlocksOf(a + b)[i] == (BlocksOf(a) + BlocksOf(b))[i]
    {
      if i >= |a| {
        assert (a + b)[i] == b[i - |a|];
      }
    }
  }

  /** A successful copy opens its blocks in exactly the pre-order in which
      `dir_tree_find` visits the copied trees. */
  lemma {:induction false} CopyNodeStartsInPreOrder(src: seq<byte>, inId: Option<Ident>, n: Node)
    requires CopyNode(src, inId, n).failure.None?
    ensures StartedBlocks(CopyNode(src, inId, n).events) == BlocksOf(PreOrder(n))
    decreases n, 1
  {
    CopyNodeParts(src, inId, n);
    CopyAllStartsInPreOrder(src, inId, n.children);
    BlockStarts(n.block, IdEvents(inId, n), OwnEntries(src, n).events, CopyAll(src, inId, n.children).events);
    BlocksOfAppend([n], PreOrderAll(n.children));
  }

  lemma BlockStarts(k: int, ids: seq<Event>, raws: seq<Event>, inner: seq<Event>)
    requires forall i :: 0 <= i < |ids| ==> !IsBracket(ids[i])
    requires forall i :: 0 <= i < |raws| ==> !IsBracket(raws[i])
    ensures StartedBlocks(([StartBlock(k)] + ids) + raws + inner + [EndBlock(k)]) == [k] + StartedBlocks(inner)
  {
    var a := [StartBlock(k)] + ids;
    var b := a + raws;
    var c := b + inner;
    NoStartedBlocks(ids);
    NoStartedBlocks(raws);
    StartedBlocksAppend([StartBlock(k)], ids);
    StartedBlocksAppend(a, raws);
    StartedBlocksAppend(b, inner);
    StartedBlocksAppend(c, [EndBlock(k)]);
    assert StartedBlocks([StartBlock(k)]) == [k];
    assert StartedBlocks([EndBlock(k)]) == [];
  }

  lemma {:induction false} CopyAllStartsInPreOrder(src: seq<byte>, inId: Option<Ident>, ns: seq<Node>)
    requires CopyAll(src, inId, ns).failure.None?
    ensures StartedBlocks(CopyAll(src, inId, ns).events) == BlocksOf(PreOrderAll(ns))
    decreases ns, 0
  {
    if |ns| > 0 {
      CopyAllParts(src, inId, ns);
      var first, others := CopyNode(src, inId, ns[0]), CopyAll(src, inId, ns[1..]);
      StartedBlocksAppend(first.events, others.events);
      CopyNodeStartsInPreOrder(src, inId, ns[0]);
      CopyAllStartsInPreOrder(src, inId, ns[1..]);
      BlocksOfAppend(PreOrder(ns[0]), PreOrderAll(ns[1..]));
    }
  }

  /** What `copy_tree` writes when it succeeds: one well-nested block per
      copied tree (the trace closes every block it opens, each with the
      kind it was opened with), opened in pre-order.  An empty list writes
      nothing and a lone node is copied as a one-element list. */
  lemma CopyTreeIsBalancedPreOrder(src: seq<byte>, inId: Option<Ident>, nodes: Roots)
    requires CopyTree(src, inId, nodes).failure.None?
    ensures Unwind(CopyTree(src, inId, nodes).events, []) == Some([])
    ensures StartedBlocks(CopyTree(src, inId, nodes).events) == BlocksOf(Visit(nodes))
    ensures nodes == Many([]) ==> CopyTree(src, inId, nodes).events == []
    ensures nodes.One? ==> CopyTree(src, inId, nodes) == CopyTree(src, inId, Many([nodes.node]))
  {
    var ns := if nodes.One? then [nodes.node] else nodes.nodes;
    assert CopyTree(src, inId, nodes) == CopyAll(src, inId, ns);
    CopyAllNests(src, inId, ns, [], []);
    assert CopyAll(src, inId, ns).events + [] == CopyAll(src, inId, ns).events;
    CopyAllStartsInPreOrder(src, inId, ns);
    if nodes.One? {
      assert PreOrderAll([nodes.node]) == PreOrder(nodes.node) + PreOrderAll([]);
    }
  }
}

=== FILE: dir_tree.dfy ===
/** `make_dir_tree`: rebuilds the block tree from the flat tag directory by a
    single forward recursive-descent scan that treats BLOCK_START and
    BLOCK_END descriptors as nesting sentinels. */
module DirTree {
  import opened Wrappers
  import opened Fiff

  /** The start index lies past the end of the directory. */
  datatype BuildError = StartOutOfRange(start: nat, length: nat)

  /** Descriptors still ahead of index `i`; the termination measure. */
  function Remaining(d: seq<Descriptor>, i: nat): nat {
    if i < |d| then |d| - i else 0
  }

  /** `d[i..j]` clipped to the directory; the scan index may run past it. */
  function Span(d: seq<Descriptor>, i: nat, j: nat): seq<Descriptor>
    requires i <= j
  {
    if j <= |d| then d[i..j] else if i <= |d| then d[i..] else []
  }

  /** The descriptors of `s` that are not sentinels, in order. */
  function Plain(s: seq<Descriptor>): (p: seq<Descriptor>)
    ensures |p| <= |s|
    ensures forall i :: 0 <= i < |p| ==> !IsSentinel(p[i])
  {
    if |s| == 0 then []
    else if IsSentinel(s[0]) then Plain(s[1..])
    else [s[0]] + Plain(s[1..])
  }

  lemma {:induction false} PlainAppend(s: seq<Descriptor>, t: seq<Descriptor>)
    ensures Plain(s + t) == Plain(s) + Plain(t)
  {
    if |s| == 0 {
      assert s + t == t;
    } else {
      assert (s + t)[1..] == s[1..] + t;
      PlainAppend(s[1..], t);
    }
  }

  lemma SpanSplit(d: seq<Descriptor>, i: nat, j: nat, k: nat)
    requires i <= j <= k
    ensures Plain(Span(d, i, k)) == Plain(Span(d, i, j)) + Plain(Span(d, j, k))
  {
    assert Span(d, i, k) == Span(d, i, j) + Span(d, j, k);
    PlainAppend(Span(d, i, j), Span(d, j, k));
  }

  /** A sentinel contributes nothing to the plain descriptors of a span. */
  lemma SpanSkip(d: seq<Descriptor>, i: nat, k: nat)
    requires i < k
    requires i < |d| ==> IsSentinel(d[i])
    ensures Plain(Span(d, i, k)) == Plain(Span(d, i + 1, k))
  {
    SpanSplit(d, i, i + 1, k);
    if i < |d| {
      assert Span(d, i, i + 1) == [d[i]];
    }
  }

  lemma SpanTake(d: seq<Descriptor>, i: nat, k: nat)
    requires i < k && i < |d| && !IsSentinel(d[i])
    ensures Plain(Span(d, i, k)) == [d[i]] + Plain(Span(d, i + 1, k))
  {
    SpanSplit(d, i, i + 1, k);
    assert Span(d, i, i + 1) == [d[i]];
  }

  lemma {:induction false} AllEntriesOfAppend(ns: seq<Node>, n: Node)
    ensures AllEntriesOf(ns + [n]) == AllEntriesOf(ns) + AllEntries(n)
  {
    if |ns| == 0 {
      assert ns + [n] == [n];
    } else {
      assert (ns + [n])[1..] == ns[1..] + [n];
      AllEntriesOfAppend(ns[1..], n);
    }
  }

  /** The block kind of the node opened at `start`: the payload of a
      BLOCK_START sentinel, and 0 (the file-level root) otherwise. */
  function BlockOf(r: Reader, d: seq<Descriptor>, start: nat): int
    requires start < |d|
  {
    if d[start].kind == BLOCK_START then r.scalar(d[start].pos) else 0
  }

  /** The node as first initialised: no identities, no counts, and the
      start descriptor itself parked in `directory` until a real entry
      replaces it. */
  function Fresh(block: int, placeholder: Descriptor): Node {
    Node(block, None, None, 0, 0, Some([placeholder]), [])
  }

  /** Entries collected so far by the scan: the placeholder does not count. */
  function Collected(n: Node): seq<Descriptor> {
    if n.nent == 0 then [] else Entries(n)
  }

  /** The scan's invariant on the node being filled in. */
  predicate Filling(r: Reader, n: Node) {
    && (n.nent > 0 ==> n.directory.Some? && |n.directory.value| == n.nent)
    && n.nchild == |n.children|
    && (forall i :: 0 <= i < |Collected(n)| ==> !IsSentinel(Collected(n)[i]))
    && (if n.block == 0 then
          n.id == LastIdent(r, Collected(n), FILE_ID) && n.parentId == None
        else
          n.id == LastIdent(r, Collected(n), BLOCK_ID)
          && n.parentId == LastIdent(r, Collected(n), PARENT_BLOCK_ID))
    && (forall i :: 0 <= i < |n.children| ==> Built(r, n.children[i]))
  }

  /** Records a non-sentinel descriptor as a direct entry and picks up the
      identities it carries: FILE_ID in the root block, BLOCK_ID and
      PARENT_BLOCK_ID in every other block; a later tag overwrites. */
  function AddEntry(r: Reader, acc: Node, e: Descriptor): (n: Node)
    requires Filling(r, acc) && !IsSentinel(e)
    ensures Filling(r, n)
    ensures Collected(n) == Collected(acc) + [e]
    ensures n.block == acc.block && n.children == acc.children
  {
    var kept := Collected(acc);
    var grown := acc.(nent := acc.nent + 1, directory := Some(kept + [e]));
    assert Collected(grown) == kept + [e];
    LastIdentSnoc(r, kept, e, FILE_ID);
    LastIdentSnoc(r, kept, e, BLOCK_ID);
    LastIdentSnoc(r, kept, e, PARENT_BLOCK_ID);
    if acc.block == 0 then
      if e.kind == FILE_ID then grown.(id := Some(r.ident(e.pos))) else grown
    else if e.kind == BLOCK_ID then grown.(id := Some(r.ident(e.pos)))
    else if e.kind == PARENT_BLOCK_ID then grown.(parentId := Some(r.ident(e.pos)))
    else grown
  }

  /** The last identity of a kind after one more descriptor: that
      descriptor's, when it has the kind. */
  lemma LastIdentSnoc(r: Reader, es: seq<Descriptor>, e: Descriptor, kind: int)
    ensures LastIdent(r, es + [e], kind) == if e.kind == kind then Some(r.ident(e.pos)) else LastIdent(r, es, kind)
  {
    assert (es + [e])[..|es|] == es;
  }

  /** Appends a built child to the node being scanned. */
  function Adopt(r: Reader, acc: Node, child: Node): (n: Node)
    requires Filling(r, acc) && Built(r, child)
    ensures Filling(r, n)
    ensures n.children == acc.children + [child]
    ensures Collected(n) == Collected(acc)
    ensures n.block == acc.block && n.id == acc.id && n.parentId == acc.parentId
  {
    acc.(nchild := acc.nchild + 1, children := acc.children + [child])
  }

  /** Drops the directory of a node that collected no entry. */
  function Finish(r: Reader, acc: Node): (n: Node)
    requires Filling(r, acc)
    ensures Built(r, n)
    ensures Entries(n) == Collected(acc)
    ensures n.block == acc.block && n.children == acc.children
    ensures n.id == acc.id && n.parentId == acc.parentId
  {
    if acc.nent == 0 then acc.(directory := None) else acc
  }

  /** The scan loop of the node opened at `start`, from index `at` on.
      It returns the finished node and the index it stopped at. */
  function Scan(r: Reader, d: seq<Descriptor>, start: nat, at: nat, acc: Node): (res: (Node, nat))
    requires start < |d| && start <= at
    requires acc.block == BlockOf(r, d, start) && Filling(r, acc)
    ensures at <= res.1
    ensures res.1 < |d| ==> d[res.1].kind == BLOCK_END
    ensures res.0.block == acc.block && Built(r, res.0)
    decreases Remaining(d, at), if at == start then 0 else 2
  {
    if at >= |d| then
      (Finish(r, acc), at)
    else if d[at].kind == BLOCK_START then
      if at != start then
        var (child, last) := Build(r, d, at);
        var acc' := Adopt(r, acc, child);
        Scan(r, d, start, last + 1, acc')
      else
        Scan(r, d, start, at + 1, acc)
    else if d[at].kind == BLOCK_END then
      // The closing test decodes the descriptor at `start`, not the one at `at`.
      if r.scalar(d[start].pos) == acc.block then
        (Finish(r, acc), at)
      else
        Scan(r, d, start, at + 1, acc)
    else
      Scan(r, d, start, at + 1, AddEntry(r, acc, d[at]))
  }

  /** The node opened at `start` and the index of the BLOCK_END that closed
      it, or an index at or past the end of the directory when the scan ran
      off it, which is not an error. */
  function Build(r: Reader, d: seq<Descriptor>, start: nat): (res: (Node, nat))
    requires start < |d|
    ensures start <= res.1
    ensures res.1 < |d| ==> d[res.1].kind == BLOCK_END
    ensures res.0.block == BlockOf(r, d, start)
    ensures Built(r, res.0)
    decreases Remaining(d, start), 1
  {
    var block := BlockOf(r, d, start);
    Scan(r, d, start, start, Fresh(block, d[start]))
  }

  /** The scan of a node ends where the scan index leaves the directory or
      at a BLOCK_END the closing test accepts. */
  predicate Stops(r: Reader, d: seq<Descriptor>, start: nat, at: nat, acc: Node)
    requires start < |d|
  {
    at >= |d| || (d[at].kind == BLOCK_END && r.scalar(d[start].pos) == acc.block)
  }

  /** The predicate the partition lemmas establish for one scan. */
  predicate ScanPartition(r: Reader, d: seq<Descriptor>, start: nat, at: nat, acc: Node)
    requires start < |d| && start <= at
    requires acc.block == BlockOf(r, d, start) && Filling(r, acc)
  {
    var res := Scan(r, d, start, at, acc);
    Tallied(AllEntries(res.0), Collected(acc), AllEntriesOf(acc.children), Plain(Span(d, at, res.1)))
  }

  /** `whole` holds the descriptors of `own`, `nested` and `rest`, each as
      often as they do together. */
  predicate Tallied(whole: seq<Descriptor>, own: seq<Descriptor>, nested: seq<Descriptor>, rest: seq<Descriptor>) {
    multiset(whole) == multiset(own + nested + rest)
  }

  /** Every plain descriptor the scan of a node passes over lands in exactly
      one node of the result: the node itself or one nested inside it. */
  lemma {:induction false} ScanPartitions(r: Reader, d: seq<Descriptor>, start: nat, at: nat, acc: Node)
    requires start < |d| && start <= at
    requires acc.block == BlockOf(r, d, start) && Filling(r, acc)
    ensures ScanPartition(r, d, start, at, acc)
    decreases Remaining(d, at), if at == start then 0 else 3
  {
    if Stops(r, d, start, at, acc) {
      StopPartitions(r, d, start, at, acc);
    } else if d[at].kind == BLOCK_START && at != start {
      ChildPartitions(r, d, start, at, acc);
    } else if IsSentinel(d[at]) {
      ScanPartitions(r, d, start, at + 1, acc);
      SkipPartitions(r, d, start, at, acc);
    } else {
      ScanPartitions(r, d, start, at + 1, AddEntry(r, acc, d[at]));
      EntryPartitions(r, d, start, at, acc);
    }
  }

  lemma StopPartitions(r: Reader, d: seq<Descriptor>, start: nat, at: nat, acc: Node)
    requires start < |d| && start <= at
    requires acc.block == BlockOf(r, d, start) && Filling(r, acc)
    requires Stops(r, d, start, at, acc)
    ensures ScanPartition(r, d, start, at, acc)
  {
    StopStep(r, d, start, at, acc);
    assert Span(d, at, at) == [];
  }

  lemma SkipPartitions(r: Reader, d: seq<Descriptor>, start: nat, at: nat, acc: Node)
    requires start <= at < |d| && IsSentinel(d[at]) && !Stops(r, d, start, at, acc)
    requires d[at].kind == BLOCK_START ==> at == start
    requires acc.block == BlockOf(r, d, start) && Filling(r, acc)
    requires ScanPartition(r, d, start, at + 1, acc)
    ensures ScanPartition(r, d, start, at, acc)
  {
    SkipStep(r, d, start, at, acc);
    SpanSkip(d, at, Scan(r, d, start, at + 1, acc).1);
  }

  /** A sentinel the scan does not stop at is passed over: the node's own
      BLOCK_START, or a BLOCK_END the closing test rejects. */
  lemma SkipStep(r: Reader, d: seq<Descriptor>, start: nat, at: nat, acc: Node)
    requires start <= at < |d| && IsSentinel(d[at]) && !Stops(r, d, start, at, acc)
    requires d[at].kind == BLOCK_START ==> at == start
    requires acc.block == BlockOf(r, d, start) && Filling(r, acc)
    ensures Scan(r, d, start, at, acc) == Scan(r, d, start, at + 1, acc)
  {
  }

  lemma EntryPartitions(r: Reader, d: seq<Descriptor>, start: nat, at: nat, acc: Node)
    requires start <= at < |d| && !IsSentinel(d[at])
    requires acc.block == BlockOf(r, d, start) && Filling(r, acc)
    requires ScanPartition(r, d, start, at + 1, AddEntry(r, acc, d[at]))
    ensures ScanPartition(r, d, start, at, acc)
  {
    var acc' := AddEntry(r, acc, d[at]);
    var res := Scan(r, d, start, at + 1, acc');
    assert Scan(r, d, start, at, acc) == res;
    SpanTake(d, at, res.1);
  }

  /** The nested-block step of `ScanPartitions`. */
  lemma {:induction false} ChildPartitions(r: Reader, d: seq<Descriptor>, start: nat, at: nat, acc: Node)
    requires start < at < |d| && d[at].kind == BLOCK_START
    requires acc.block == BlockOf(r, d, start) && Filling(r, acc)
    ensures ScanPartition(r, d, start, at, acc)
    decreases Remaining(d, at), 2
  {
    var child, last := Build(r, d, at).0, Build(r, d, at).1;
    var acc' := Adopt(r, acc, child);
    ChildResumes(r, d, start, at, acc, last + 1, acc');
    BuildPartitions(r, d, at);
    ScanPartitions(r, d, start, last + 1, acc');
    ChildTally(r, d, start, at, acc, child, last, acc', Scan(r, d, start, last + 1, acc'));
  }

  /** The tally of `ChildPartitions`: the child's entries and those of the
      resumed scan make up the whole. */
  lemma ChildTally(r: Reader, d: seq<Descriptor>, start: nat, at: nat, acc: Node,
                   child: Node, last: nat, acc': Node, res: (Node, nat))
    requires start < at < |d| && d[at].kind == BLOCK_START
    requires acc.block == BlockOf(r, d, start) && Filling(r, acc)
    requires child == Build(r, d, at).0 && last == Build(r, d, at).1 && acc' == Adopt(r, acc, child)
    requires res == Scan(r, d, start, last + 1, acc') == Scan(r, d, start, at, acc)
    requires multiset(AllEntries(child)) == multiset(Plain(Span(d, at, last)))
    requires ScanPartition(r, d, start, last + 1, acc')
    ensures ScanPartition(r, d, start, at, acc)
  {
    AllEntriesOfAppend(acc.children, child);
    SpanSplit(d, at, last, res.1);
    SpanSkip(d, last, res.1);
    ChildRegroup(AllEntries(res.0), Collected(acc), AllEntriesOf(acc.children), AllEntries(child),
                 Plain(Span(d, at, last)), Plain(Span(d, last + 1, res.1)));
  }

  /** A nested BLOCK_START: the child is built and the scan resumes just
      past the index the child stopped at. */
  lemma ChildStep(r: Reader, d: seq<Descriptor>, start: nat, at: nat, acc: Node)
    requires start < at < |d| && d[at].kind == BLOCK_START
    requires acc.block == BlockOf(r, d, start) && Filling(r, acc)
    ensures Scan(r, d, start, at, acc) == Scan(r, d, start, Build(r, d, at).1 + 1, Adopt(r, acc, Build(r, d, at).0))
  {
  }

  /** `ChildStep` with the resumed index and node named. */
  lemma ChildResumes(r: Reader, d: seq<Descriptor>, start: nat, at: nat, acc: Node, k: nat, acc': Node)
    requires start < at < |d| && d[at].kind == BLOCK_START
    requires acc.block == BlockOf(r, d, start) && Filling(r, acc)
    requires Build(r, d, at).1 + 1 == k && acc' == Adopt(r, acc, Build(r, d, at).0)
    ensures Scan(r, d, start, at, acc) == Scan(r, d, start, k, acc')
  {
    ChildStep(r, d, start, at, acc);
  }

  lemma ChildRegroup(result: seq<Descriptor>, before: seq<Descriptor>, siblings: seq<Descriptor>, child: seq<Descriptor>,
                     inner: seq<Descriptor>, outer: seq<Descriptor>)
    requires multiset(child) == multiset(inner)
    requires Tallied(result, before, siblings + child, outer)
    ensures Tallied(result, before, siblings, inner + outer)
  {
    calc {
      multiset(result);
      multiset(before) + multiset(siblings) + multiset(child) + multiset(outer);
      multiset(before) + multiset(siblings) + multiset(inner) + multiset(outer);
    }
  }

  /** The entries of a built tree are exactly the plain descriptors of the
      span it was built from, each in one node. */
  lemma {:induction false} BuildPartitions(r: Reader, d: seq<Descriptor>, start: nat)
    requires start < |d|
    ensures multiset(AllEntries(Build(r, d, start).0)) == multiset(Plain(Span(d, start, Build(r, d, start).1)))
    decreases Remaining(d, start), 1
  {
    ScanPartitions(r, d, start, start, Fresh(BlockOf(r, d, start), d[start]));
    assert Build(r, d, start) == Scan(r, d, start, start, Fresh(BlockOf(r, d, start), d[start]));
  }

  /** A plain descriptor becomes an entry and the scan moves on by one. */
  lemma EntryStep(r: Reader, d: seq<Descriptor>, start: nat, at: nat, acc: Node)
    requires start <= at < |d| && !IsSentinel(d[at])
    requires acc.block == BlockOf(r, d, start) && Filling(r, acc)
    ensures Scan(r, d, start, at, acc) == Scan(r, d, start, at + 1, AddEntry(r, acc, d[at]))
  {
  }

  /** The BLOCK_START that opened the node is not a child of it. */
  lemma OpenStep(r: Reader, d: seq<Descriptor>, start: nat, acc: Node)
    requires start < |d| && d[start].kind == BLOCK_START
    requires acc.block == BlockOf(r, d, start) && Filling(r, acc)
    ensures Scan(r, d, start, start, acc) == Scan(r, d, start, start + 1, acc)
  {
  }

  /** Where the scan stops it finishes the node. */
  lemma StopStep(r: Reader, d: seq<Descriptor>, start: nat, at: nat, acc: Node)
    requires start < |d| && start <= at && Stops(r, d, start, at, acc)
    requires acc.block == BlockOf(r, d, start) && Filling(r, acc)
    ensures Scan(r, d, start, at, acc) == (Finish(r, acc), at)
  {
  }

  /** A BLOCK_END the closing test accepts ends the node where it stands. */
  lemma CloseStep(r: Reader, d: seq<Descriptor>, start: nat, at: nat, acc: Node)
    requires start <= at < |d| && d[at].kind == BLOCK_END
    requires acc.block == BlockOf(r, d, start) && Filling(r, acc)
    requires r.scalar(d[start].pos) == acc.block
    ensures Scan(r, d, start, at, acc) == (Finish(r, acc), at)
  {
  }

  /** Adds a run of descriptors as entries, in order. */
  function AddAll(r: Reader, acc: Node, es: seq<Descriptor>): (n: Node)
    requires Filling(r, acc) && forall i :: 0 <= i < |es| ==> !IsSentinel(es[i])
    ensures Filling(r, n)
    ensures Collected(n) == Collected(acc) + es
    ensures n.block == acc.block && n.children == acc.children
    decreases |es|
  {
    if |es| == 0 then
      assert Collected(acc) + es == Collected(acc);
      acc
    else
      assert Collected(acc) + es == Collected(acc) + [es[0]] + es[1..];
      AddAll(r, AddEntry(r, acc, es[0]), es[1..])
  }

  lemma AddAllFirst(r: Reader, acc: Node, es: seq<Descriptor>)
    requires Filling(r, acc) && forall i :: 0 <= i < |es| ==> !IsSentinel(es[i])
    requires |es| > 0
    ensures AddAll(r, acc, es) == AddAll(r, AddEntry(r, acc, es[0]), es[1..])
  {
  }

  /** No sentinel in a run of descriptors. */
  predicate AllPlain(es: seq<Descriptor>) {
    forall j :: 0 <= j < |es| ==> !IsSentinel(es[j])
  }

  /** A run of plain descriptors is collected as entries of the node being
      scanned, one after the other, and the scan carries on after it. */
  lemma {:induction false} ScanRun(r: Reader, d: seq<Descriptor>, start: nat, i: nat, k: nat, acc: Node)
    requires start < i <= k <= |d| && AllPlain(d[i..k])
    requires acc.block == BlockOf(r, d, start) && Filling(r, acc)
    ensures Scan(r, d, start, i, acc) == Scan(r, d, start, k, AddAll(r, acc, d[i..k]))
    decreases k - i
  {
    if i == k {
      assert AddAll(r, acc, d[i..k]) == acc;
      assert Scan(r, d, start, i, acc) == Scan(r, d, start, k, AddAll(r, acc, d[i..k]));
    } else {
      var es := d[i..k];
      assert es[0] == d[i] && es[1..] == d[i + 1..k];
      var acc' := AddEntry(r, acc, d[i]);
      EntryStep(r, d, start, i, acc);
      ScanRun(r, d, start, i + 1, k, acc');
      AddAllFirst(r, acc, es);
      assert AddAll(r, acc, es) == AddAll(r, acc', d[i + 1..k]);
      assert Scan(r, d, start, i, acc) == Scan(r, d, start, i + 1, acc');
      assert Scan(r, d, start, i, acc) == Scan(r, d, start, k, AddAll(r, acc, d[i..k]));
    }
  }

  /** The node opened at `start` once the plain descriptors up to `k`
      are collected. */
  function Opened(r: Reader, d: seq<Descriptor>, start: nat, k: nat): (n: Node)
    requires start < k <= |d| && AllPlain(d[start + 1..k])
    ensures Filling(r, n) && n.block == BlockOf(r, d, start)
    ensures Collected(n) == d[start + 1..k] && n.children == []
  {
    FreshFills(r, BlockOf(r, d, start), d[start]);
    assert [] + d[start + 1..k] == d[start + 1..k];
    AddAll(r, Fresh(BlockOf(r, d, start), d[start]), d[start + 1..k])
  }

  /** A freshly opened node has collected nothing and keeps the scan's
      invariant. */
  lemma FreshFills(r: Reader, block: int, placeholder: Descriptor)
    ensures Filling(r, Fresh(block, placeholder)) && Collected(Fresh(block, placeholder)) == []
  {
  }

  /** A node opened by a BLOCK_START and followed by a run of plain
      descriptors: the builder collects the run, then scans on after it. */
  lemma LeadingRun(r: Reader, d: seq<Descriptor>, start: nat, k: nat)
    requires start < k <= |d| && d[start].kind == BLOCK_START
    requires AllPlain(d[start + 1..k])
    ensures Build(r, d, start) == Scan(r, d, start, k, Opened(r, d, start, k))
  {
    var acc0 := Fresh(BlockOf(r, d, start), d[start]);
    assert Build(r, d, start) == Scan(r, d, start, start, acc0);
    OpenStep(r, d, start, acc0);
    ScanRun(r, d, start, start + 1, k, acc0);
  }

  /** `make_dir_tree(fid, directory, start)`: fails only when `start` does
      not index the directory. */
  function MakeDirTree(r: Reader, d: seq<Descriptor>, start: nat): (res: Result<(Node, nat), BuildError>)
    ensures res.Failure? <==> start >= |d|
    ensures res.Success? ==> res.value == Build(r, d, start)
  {
    if start < |d| then Success(Build(r, d, start))
    else Failure(StartOutOfRange(start, |d|))
  }
}

=== FILE: fiff.dfy ===
/** The data model shared by the FIFF directory-tree engine: tag descriptors,
    identifiers, the tag reader and the tree nodes built from a directory. */
module Fiff {
  import opened Wrappers

  // Tag kinds the engine treats specially, with their FIFF codes.  The
  // proofs rely only on the six codes being pairwise distinct.
  const FILE_ID: int := 100
  const BLOCK_ID: int := 103
  const BLOCK_START: int := 104
  const BLOCK_END: int := 105
  const PARENT_FILE_ID: int := 109
  const PARENT_BLOCK_ID: int := 110

  newtype byte = b: int | 0 <= b < 256

  /** An identifier (file or block identity).  The engine only stores,
      compares and re-emits it, so its contents stay opaque. */
  datatype Ident = Ident(words: seq<int>)

  /** One entry of the tag directory: tag kind, data type, payload size
      and the file position of the tag. */
  datatype Descriptor = Descriptor(kind: int, typ: int, size: int, pos: int)

  predicate IsSentinel(e: Descriptor) {
    e.kind == BLOCK_START || e.kind == BLOCK_END
  }

  /** The three tag kinds the copier re-keys instead of passing through. */
  predicate IsRekeyed(kind: int) {
    kind == BLOCK_ID || kind == PARENT_BLOCK_ID || kind == PARENT_FILE_ID
  }

  /** `read_tag(fid, pos).data`, seen the two ways the engine uses it: as
      the block kind carried by a sentinel (or any scalar payload) and as
      an identifier.  Both depend on the position only. */
  datatype Reader = Reader(scalar: int -> int, ident: int -> Ident)

  /** A block of the tree.  `directory` is absent (not empty) when the block
      has no direct entries; `nent` and `nchild` are counters kept next to
      the lists. */
  datatype Node = Node(
    block: int,
    id: Option<Ident>,
    parentId: Option<Ident>,
    nent: nat,
    nchild: nat,
    directory: Option<seq<Descriptor>>,
    children: seq<Node>)

  /** The direct entries of a node, empty when `directory` is absent. */
  function Entries(n: Node): seq<Descriptor> {
    if n.directory.Some? then n.directory.value else []
  }

  /** The identifier of the last descriptor of kind `kind` in `es`, or
      `None` when there is none. */
  function LastIdent(r: Reader, es: seq<Descriptor>, kind: int): Option<Ident> {
    if |es| == 0 then None
    else if es[|es| - 1].kind == kind then Some(r.ident(es[|es| - 1].pos))
    else LastIdent(r, es[..|es| - 1], kind)
  }

  /** What a built node promises about itself, apart from its children:
      consistent counters, `directory` absent exactly when there are no
      entries, no sentinel among the entries, and identities taken from
      the last identity entry of the right kind. */
  predicate LocallyBuilt(r: Reader, n: Node) {
    && n.nent == |Entries(n)|
    && n.nchild == |n.children|
    && (n.directory.None? <==> n.nent == 0)
    && (forall i :: 0 <= i < |Entries(n)| ==> !IsSentinel(Entries(n)[i]))
    && (if n.block == 0 then
          n.id == LastIdent(r, Entries(n), FILE_ID) && n.parentId == None
        else
          n.id == LastIdent(r, Entries(n), BLOCK_ID)
          && n.parentId == LastIdent(r, Entries(n), PARENT_BLOCK_ID))
  }

  /** `LocallyBuilt` for a node and all its descendants. */
  predicate Built(r: Reader, n: Node) {
    LocallyBuilt(r, n) && forall i :: 0 <= i < |n.children| ==> Built(r, n.children[i])
  }

  /** Number of nodes in a tree and in a forest. */
  function Size(n: Node): nat {
    1 + SizeAll(n.children)
  }

  function SizeAll(ns: seq<Node>): nat {
    if |ns| == 0 then 0 else Size(ns[0]) + SizeAll(ns[1..])
  }

  /** All the direct entries of every node of a tree, parent first. */
  function AllEntries(n: Node): seq<Descriptor> {
    Entries(n) + AllEntriesOf(n.children)
  }

  function AllEntriesOf(ns: seq<Node>): seq<Descriptor> {
    if |ns| == 0 then [] else AllEntries(ns[0]) + AllEntriesOf(ns[1..])
  }
}

=== FILE: find.dfy ===
/** `dir_tree_find`: pre-order depth-first search of a tree, or of a list
    of trees, for every node of a given block kind. */
module Find {
  import opened Fiff

  /** What the search accepts: one tree, or a list of trees searched in
      turn. */
  datatype Roots = One(node: Node) | Many(nodes: seq<Node>)

  /** Matches in one tree: the node itself first, then its children's
      matches, left to right. */
  function FindIn(n: Node, kind: int): (found: seq<Node>)
    ensures forall i :: 0 <= i < |found| ==> found[i].block == kind
    ensures |found| <= Size(n)
  {
    (if n.block == kind then [n] else []) + FindInAll(n.children, kind)
  }

  /** Matches in a list of trees, concatenated in list order. */
  function FindInAll(ns: seq<Node>, kind: int): (found: seq<Node>)
    ensures forall i :: 0 <= i < |found| ==> found[i].block == kind
    ensures |found| <= SizeAll(ns)
  {
    if |ns| == 0 then [] else FindIn(ns[0], kind) + FindInAll(ns[1..], kind)
  }

  /** `dir_tree_find(tree, kind)`. */
  function DirTreeFind(t: Roots, kind: int): (found: seq<Node>)
    ensures forall i :: 0 <= i < |found| ==> found[i].block == kind
  {
    match t
    case One(n) => FindIn(n, kind)
    case Many(ns) => FindInAll(ns, kind)
  }

  /** Reference order: every node of a tree, each before its descendants,
      siblings left to right. */
  function PreOrder(n: Node): seq<Node> {
    [n] + PreOrderAll(n.children)
  }

  function PreOrderAll(ns: seq<Node>): seq<Node> {
    if |ns| == 0 then [] else PreOrder(ns[0]) + PreOrderAll(ns[1..])
  }

  function Visit(t: Roots): seq<Node> {
    match t
    case One(n) => PreOrder(n)
    case Many(ns) => PreOrderAll(ns)
  }

  /** The nodes of `ns` whose block is `kind`, in order. */
  function OfKind(ns: seq<Node>, kind: int): seq<Node> {
    if |ns| == 0 then []
    else if ns[0].block == kind then [ns[0]] + OfKind(ns[1..], kind)
    else OfKind(ns[1..], kind)
  }

  lemma {:induction false} OfKindAppend(a: seq<Node>, b: seq<Node>, kind: int)
    ensures OfKind(a + b, kind) == OfKind(a, kind) + OfKind(b, kind)
  {
    if |a| == 0 {
      assert a + b == b;
    } else {
      assert (a + b)[1..] == a[1..] + b;
      OfKindAppend(a[1..], b, kind);
    }
  }

  lemma {:induction false} OfKindMembers(ns: seq<Node>, kind: int, x: Node)
    ensures x in OfKind(ns, kind) <==> x in ns && x.block == kind
  {
    if |ns| > 0 {
      OfKindMembers(ns[1..], kind, x);
      assert ns == [ns[0]] + ns[1..];
    }
  }

  /** The search returns exactly the pre-order walk filtered by kind. */
  lemma {:induction false} FindInIsPreOrder(n: Node, kind: int)
    ensures FindIn(n, kind) == OfKind(PreOrder(n), kind)
    decreases n, 1
  {
    FindInAllIsPreOrder(n.children, kind);
    OfKindAppend([n], PreOrderAll(n.children), kind);
  }

  lemma {:induction false} FindInAllIsPreOrder(ns: seq<Node>, kind: int)
    ensures FindInAll(ns, kind) == OfKind(PreOrderAll(ns), kind)
    decreases ns, 0
  {
    if |ns| > 0 {
      FindInIsPreOrder(ns[0], kind);
      FindInAllIsPreOrder(ns[1..], kind);
      OfKindAppend(PreOrder(ns[0]), PreOrderAll(ns[1..]), kind);
    }
  }

  /** `dir_tree_find` is the pre-order walk filtered by block kind: a node is
      found if and only if it is in the searched trees and has that kind,
      and the matches come in pre-order. */
  lemma DirTreeFindIsFilteredWalk(t: Roots, kind: int)
    ensures DirTreeFind(t, kind) == OfKind(Visit(t), kind)
    ensures forall x :: x in DirTreeFind(t, kind) <==> x in Visit(t) && x.block == kind
    ensures |Visit(t)| == match t case One(n) => Size(n) case Many(ns) => SizeAll(ns)
  {
    match t {
      case One(n) =>
        FindInIsPreOrder(n, kind);
        PreOrderCoversTree(n);
      case Many(ns) =>
        FindInAllIsPreOrder(ns, kind);
        PreOrderAllCoversForest(ns);
    }
    forall x {
      OfKindMembers(Visit(t), kind, x);
    }
  }

  /** Searching a list concatenates the per-tree results, and a lone tree is
      searched as a one-element list. */
  lemma {:induction false} FindManyConcatenates(a: seq<Node>, b: seq<Node>, kind: int)
    ensures DirTreeFind(Many(a + b), kind) == DirTreeFind(Many(a), kind) + DirTreeFind(Many(b), kind)
    ensures forall n :: DirTreeFind(One(n), kind) == DirTreeFind(Many([n]), kind)
  {
    if |a| > 0 {
      assert (a + b)[1..] == a[1..] + b;
      FindManyConcatenates(a[1..], b, kind);
    } else {
      assert a + b == b;
    }
    forall n ensures DirTreeFind(One(n), kind) == DirTreeFind(Many([n]), kind) {
      assert [n][1..] == [];
    }
  }

  /** The walk visits every node exactly as often as `Size` counts it and
      starts with the root. */
  lemma {:induction false} PreOrderCoversTree(n: Node)
    ensures |PreOrder(n)| == Size(n) && PreOrder(n)[0] == n
    decreases n, 1
  {
    PreOrderAllCoversForest(n.children);
  }

  lemma {:induction false} PreOrderAllCoversForest(ns: seq<Node>)
    ensures |PreOrderAll(ns)| == SizeAll(ns)
    decreases ns, 0
  {
    if |ns| > 0 {
      PreOrderCoversTree(ns[0]);
      PreOrderAllCoversForest(ns[1..]);
    }
  }
}

=== FILE: levels.dfy ===
/** An independent reading of which descriptors `make_dir_tree` files under
    a node: walk the directory keeping a nesting depth and collect the
    plain descriptors met at depth 0. */
module Levels {
  import opened Fiff
  import opened DirTree

  /** The nesting depth after passing `e`: one level down at a BLOCK_START,
      one level up at a BLOCK_END, never above the level the walk began at. */
  function Deeper(e: Descriptor, depth: nat): nat {
    if e.kind == BLOCK_START then depth + 1
    else if e.kind == BLOCK_END then (if depth > 0 then depth - 1 else 0)
    else depth
  }

  /** The plain descriptors of `es` that a walk entering at `depth` meets
      at depth 0, in order. */
  function Level(es: seq<Descriptor>, depth: nat): seq<Descriptor> {
    if |es| == 0 then []
    else (if depth == 0 && !IsSentinel(es[0]) then [es[0]] else []) + Level(es[1..], Deeper(es[0], depth))
  }

  /** `Level` over the index range `[i, j)` of `d`, clipped to `d`: the
      form the scan proofs use. */
  function Walk(d: seq<Descriptor>, i: nat, j: nat, depth: nat): seq<Descriptor>
    decreases if i < j then j - i else 0
  {
    if i >= j || i >= |d| then []
    else if depth == 0 && !IsSentinel(d[i]) then [d[i]] + Walk(d, i + 1, j, Deeper(d[i], depth))
    else Walk(d, i + 1, j, Deeper(d[i], depth))
  }

  /** `Walk` with the descriptors kept so far carried along: the shape of
      the scan, which appends each entry to the node as it meets it. */
  function Gather(kept: seq<Descriptor>, d: seq<Descriptor>, i: nat, j: nat, depth: nat): seq<Descriptor>
    decreases if i < j then j - i else 0
  {
    if i >= j || i >= |d| then kept
    else if depth == 0 && !IsSentinel(d[i]) then Gather(kept + [d[i]], d, i + 1, j, Deeper(d[i], depth))
    else Gather(kept, d, i + 1, j, Deeper(d[i], depth))
  }

  lemma {:induction false} GatherIsWalk(kept: seq<Descriptor>, d: seq<Descriptor>, i: nat, j: nat, depth: nat)
    ensures Gather(kept, d, i, j, depth) == kept + Walk(d, i, j, depth)
    decreases if i < j then j - i else 0
  {
    if i < j && i < |d| {
      if depth == 0 && !IsSentinel(d[i]) {
        GatherIsWalk(kept + [d[i]], d, i + 1, j, Deeper(d[i], depth));
        assert kept + [d[i]] + Walk(d, i + 1, j, Deeper(d[i], depth)) == kept + ([d[i]] + Walk(d, i + 1, j, Deeper(d[i], depth)));
      } else {
        GatherIsWalk(kept, d, i + 1, j, Deeper(d[i], depth));
      }
    } else {
      assert kept + [] == kept;
    }
  }

  /** The depth a walk over `[i, j)` entered at `depth` ends at. */
  function DepthAt(d: seq<Descriptor>, i: nat, j: nat, depth: nat): nat
    decreases if i < j then j - i else 0
  {
    if i >= j || i >= |d| then depth else DepthAt(d, i + 1, j, Deeper(d[i], depth))
  }

  lemma {:induction false} WalkIsLevel(d: seq<Descriptor>, i: nat, j: nat, depth: nat)
    requires i <= j
    ensures Walk(d, i, j, depth) == Level(Span(d, i, j), depth)
    decreases j - i
  {
    if i < j && i < |d| {
      WalkIsLevel(d, i + 1, j, Deeper(d[i], depth));
      SpanFront(d, i, j);
      var s := Span(d, i, j);
      assert Level(s, depth) == (if depth == 0 && !IsSentinel(s[0]) then [s[0]] else []) + Level(s[1..], Deeper(s[0], depth));
    } else {
      SpanEmpty(d, i, j);
    }
  }

  /** A span that starts at its end or past the directory is empty. */
  lemma SpanEmpty(d: seq<Descriptor>, i: nat, j: nat)
    requires i <= j && (i == j || i >= |d|)
    ensures Span(d, i, j) == []
  {
  }

  /** A non-empty span begins with its first descriptor. */
  lemma SpanFront(d: seq<Descriptor>, i: nat, j: nat)
    requires i < j && i < |d|
    ensures |Span(d, i, j)| > 0 && Span(d, i, j)[0] == d[i] && Span(d, i, j)[1..] == Span(d, i + 1, j)
  {
  }

  /** A walk over `[i, k)` is a walk over `[i, j)` and then one over `[j, k)`
      entered at the depth the first ended at. */
  lemma {:induction false} WalkSplit(d: seq<Descriptor>, i: nat, j: nat, k: nat, depth: nat)
    requires i <= j <= k
    ensures Walk(d, i, k, depth) == Walk(d, i, j, depth) + Walk(d, j, k, DepthAt(d, i, j, depth))
    ensures DepthAt(d, i, k, depth) == DepthAt(d, j, k, DepthAt(d, i, j, depth))
    decreases j - i
  {
    if i < j && i < |d| {
      WalkSplit(d, i + 1, j, k, Deeper(d[i], depth));
    }
  }

  /** The walk over `[i, j)` entered at `depth` collects nothing and, when
      the range lies inside `d`, ends at depth `after`. */
  predicate Silent(d: seq<Descriptor>, i: nat, j: nat, depth: nat, after: nat) {
    Walk(d, i, j, depth) == [] && (j <= |d| ==> DepthAt(d, i, j, depth) == after)
  }

  /** Two silent walks in a row, the first returning to the depth the
      second is entered at. */
  lemma SilentJoin(d: seq<Descriptor>, i: nat, j: nat, k: nat, depth: nat, after: nat)
    requires i <= j <= k
    requires Silent(d, i, j, depth, depth) && Silent(d, j, k, depth, after)
    ensures Silent(d, i, k, depth, after)
  {
    WalkSplit(d, i, j, k, depth);
  }

  /** The inside of a nested block at depth `k + 1`: the scan resumed at
      `at` collects nothing at depth 0, and once its BLOCK_END is passed the
      walk is back at depth `k`. */
  lemma {:induction false} InnerLevels(r: Reader, d: seq<Descriptor>, s: nat, at: nat, acc: Node, k: nat)
    requires s < at && s < |d| && d[s].kind == BLOCK_START
    requires acc.block == BlockOf(r, d, s) && Filling(r, acc)
    ensures InnerLevel(r, d, s, at, acc, k)
    decreases Remaining(d, at), 4
  {
    if at >= |d| || d[at].kind == BLOCK_END {
      InnerClose(r, d, s, at, acc, k);
    } else if d[at].kind == BLOCK_START {
      InnerChildLevels(r, d, s, at, acc, k);
    } else {
      InnerLevels(r, d, s, at + 1, AddEntry(r, acc, d[at]), k);
      InnerEntry(r, d, s, at, acc, k);
    }
  }

  /** The nested-block case of `InnerLevels`. */
  lemma {:induction false} InnerChildLevels(r: Reader, d: seq<Descriptor>, s: nat, at: nat, acc: Node, k: nat)
    requires s < at < |d| && d[s].kind == BLOCK_START && d[at].kind == BLOCK_START
    requires acc.block == BlockOf(r, d, s) && Filling(r, acc)
    ensures InnerLevel(r, d, s, at, acc, k)
    decreases Remaining(d, at), 3
  {
    BlockLevels(r, d, at, k + 1);
    InnerLevels(r, d, s, Build(r, d, at).1 + 1, Adopt(r, acc, Build(r, d, at).0), k);
    InnerChild(r, d, s, at, acc, k);
  }

  /** The property `InnerLevels` establishes for one resumed scan. */
  predicate InnerLevel(r: Reader, d: seq<Descriptor>, s: nat, at: nat, acc: Node, k: nat)
    requires s < at && s < |d| && d[s].kind == BLOCK_START
    requires acc.block == BlockOf(r, d, s) && Filling(r, acc)
  {
    Silent(d, at, Scan(r, d, s, at, acc).1 + 1, k + 1, k)
  }

  lemma InnerClose(r: Reader, d: seq<Descriptor>, s: nat, at: nat, acc: Node, k: nat)
    requires s < at && s < |d| && d[s].kind == BLOCK_START
    requires acc.block == BlockOf(r, d, s) && Filling(r, acc)
    requires at >= |d| || d[at].kind == BLOCK_END
    ensures InnerLevel(r, d, s, at, acc, k)
  {
    if at < |d| {
      CloseStep(r, d, s, at, acc);
    }
  }

  lemma InnerChild(r: Reader, d: seq<Descriptor>, s: nat, at: nat, acc: Node, k: nat)
    requires s < at < |d| && d[s].kind == BLOCK_START && d[at].kind == BLOCK_START
    requires acc.block == BlockOf(r, d, s) && Filling(r, acc)
    requires Silent(d, at, Build(r, d, at).1 + 1, k + 1, k + 1)
    requires InnerLevel(r, d, s, Build(r, d, at).1 + 1, Adopt(r, acc, Build(r, d, at).0), k)
    ensures InnerLevel(r, d, s, at, acc, k)
  {
    ChildStep(r, d, s, at, acc);
    var last := Scan(r, d, s, Build(r, d, at).1 + 1, Adopt(r, acc, Build(r, d, at).0)).1;
    assert Scan(r, d, s, at, acc).1 == last;
    SilentJoin(d, at, Build(r, d, at).1 + 1, last + 1, k + 1, k);
  }

  lemma InnerEntry(r: Reader, d: seq<Descriptor>, s: nat, at: nat, acc: Node, k: nat)
    requires s < at < |d| && d[s].kind == BLOCK_START && !IsSentinel(d[at])
    requires acc.block == BlockOf(r, d, s) && Filling(r, acc)
    requires InnerLevel(r, d, s, at + 1, AddEntry(r, acc, d[at]), k)
    ensures InnerLevel(r, d, s, at, acc, k)
  {
    EntryStep(r, d, s, at, acc);
    assert Scan(r, d, s, at, acc).1 == Scan(r, d, s, at + 1, AddEntry(r, acc, d[at])).1;
  }

  /** A nested block, from its BLOCK_START through the BLOCK_END that closes
      it, is balanced: a walk entering it at depth `k` collects nothing and,
      when the block closes inside the directory, leaves it at depth `k`. */
  lemma {:induction false} BlockLevels(r: Reader, d: seq<Descriptor>, s: nat, k: nat)
    requires s < |d| && d[s].kind == BLOCK_START
    ensures Silent(d, s, Build(r, d, s).1 + 1, k, k)
    decreases Remaining(d, s), 2
  {
    var acc := Fresh(BlockOf(r, d, s), d[s]);
    FreshFills(r, BlockOf(r, d, s), d[s]);
    OpenStep(r, d, s, acc);
    InnerLevels(r, d, s, s + 1, acc, k);
    assert Build(r, d, s) == Scan(r, d, s, s + 1, acc);
    SilentOpen(d, s, Build(r, d, s).1 + 1, k);
  }

  /** A BLOCK_START entered at depth `k` takes the walk to depth `k + 1`. */
  lemma SilentOpen(d: seq<Descriptor>, s: nat, j: nat, k: nat)
    requires s < j && s < |d| && d[s].kind == BLOCK_START
    requires Silent(d, s + 1, j, k + 1, k)
    ensures Silent(d, s, j, k, k)
  {
  }

  /** Past a nested block that is silent at depth 0, the walk carries on
      as if the block were not there. */
  lemma GatherPastBlock(kept: seq<Descriptor>, d: seq<Descriptor>, at: nat, j: nat, k: nat)
    requires at <= j <= k && Silent(d, at, j, 0, 0)
    ensures Gather(kept, d, at, k, 0) == Gather(kept, d, j, k, 0)
  {
    WalkSplit(d, at, j, k, 0);
    GatherIsWalk(kept, d, at, k, 0);
    GatherIsWalk(kept, d, j, k, 0);
    if j > |d| {
      assert Walk(d, j, k, DepthAt(d, at, j, 0)) == [] == Walk(d, j, k, 0);
    }
  }

  /** The property `ScanLevels` establishes for one resumed scan: the
      node's entries are those collected so far followed by the walk's
      depth-0 descriptors up to where the scan stops. */
  predicate ScanLevel(r: Reader, d: seq<Descriptor>, start: nat, at: nat, acc: Node)
    requires start < |d| && start <= at
    requires acc.block == BlockOf(r, d, start) && Filling(r, acc)
  {
    var res := Scan(r, d, start, at, acc);
    Entries(res.0) == Gather(Collected(acc), d, at, res.1, 0)
  }

  lemma {:induction false} ScanLevels(r: Reader, d: seq<Descriptor>, start: nat, at: nat, acc: Node)
    requires start < |d| && start <= at
    requires at == start ==> d[start].kind != BLOCK_START
    requires acc.block == BlockOf(r, d, start) && Filling(r, acc)
    ensures ScanLevel(r, d, start, at, acc)
    decreases Remaining(d, at), 2
  {
    if Stops(r, d, start, at, acc) {
      StopStep(r, d, start, at, acc);
    } else if d[at].kind == BLOCK_START {
      ScanChildLevels(r, d, start, at, acc);
    } else if d[at].kind == BLOCK_END {
      ScanLevels(r, d, start, at + 1, acc);
      SkipLevels(r, d, start, at, acc);
    } else {
      ScanLevels(r, d, start, at + 1, AddEntry(r, acc, d[at]));
      EntryLevels(r, d, start, at, acc);
    }
  }

  /** The nested-block case of `ScanLevels`. */
  lemma {:induction false} ScanChildLevels(r: Reader, d: seq<Descriptor>, start: nat, at: nat, acc: Node)
    requires start < at < |d| && d[at].kind == BLOCK_START
    requires acc.block == BlockOf(r, d, start) && Filling(r, acc)
    ensures ScanLevel(r, d, start, at, acc)
    decreases Remaining(d, at), 1
  {
    BlockLevels(r, d, at, 0);
    ScanLevels(r, d, start, Build(r, d, at).1 + 1, Adopt(r, acc, Build(r, d, at).0));
    ChildLevels(r, d, start, at, acc);
  }

  lemma ChildLevels(r: Reader, d: seq<Descriptor>, start: nat, at: nat, acc: Node)
    requires start < at < |d| && d[at].kind == BLOCK_START
    requires acc.block == BlockOf(r, d, start) && Filling(r, acc)
    requires Silent(d, at, Build(r, d, at).1 + 1, 0, 0)
    requires ScanLevel(r, d, start, Build(r, d, at).1 + 1, Adopt(r, acc, Build(r, d, at).0))
    ensures ScanLevel(r, d, start, at, acc)
  {
    ChildStep(r, d, start, at, acc);
    var res := Scan(r, d, start, Build(r, d, at).1 + 1, Adopt(r, acc, Build(r, d, at).0));
    GatherPastBlock(Collected(acc), d, at, Build(r, d, at).1 + 1, res.1);
  }

  lemma SkipLevels(r: Reader, d: seq<Descriptor>, start: nat, at: nat, acc: Node)
    requires start <= at < |d| && d[at].kind == BLOCK_END && !Stops(r, d, start, at, acc)
    requires acc.block == BlockOf(r, d, start) && Filling(r, acc)
    requires ScanLevel(r, d, start, at + 1, acc)
    ensures ScanLevel(r, d, start, at, acc)
  {
    SkipStep(r, d, start, at, acc);
  }

  lemma EntryLevels(r: Reader, d: seq<Descriptor>, start: nat, at: nat, acc: Node)
    requires start <= at < |d| && !IsSentinel(d[at])
    requires acc.block == BlockOf(r, d, start) && Filling(r, acc)
    requires ScanLevel(r, d, start, at + 1, AddEntry(r, acc, d[at]))
    ensures ScanLevel(r, d, start, at, acc)
  {
    EntryStep(r, d, start, at, acc);
  }

  /** Where the walk over a node's own descriptors begins: just past its
      BLOCK_START, or at `start` itself for the root. */
  function Inside(d: seq<Descriptor>, start: nat): nat
    requires start < |d|
  {
    if d[start].kind == BLOCK_START then start + 1 else start
  }

  /** The index of the first BLOCK_END a walk from `i`, entered at `depth`,
      meets at depth 0; `|d|` when there is none. */
  function FirstClose(d: seq<Descriptor>, i: nat, depth: nat): (c: nat)
    ensures i <= c || c == |d|
    decreases Remaining(d, i)
  {
    if i >= |d| then |d|
    else if d[i].kind == BLOCK_END && depth == 0 then i
    else FirstClose(d, i + 1, Deeper(d[i], depth))
  }

  /** `FirstClose` is what its name says: a BLOCK_END at depth 0, and no
      BLOCK_END before it at depth 0. */
  lemma {:induction false} FirstCloseIsFirst(d: seq<Descriptor>, i: nat, depth: nat)
    requires i <= |d|
    ensures i <= FirstClose(d, i, depth) <= |d|
    ensures FirstClose(d, i, depth) < |d| ==>
              d[FirstClose(d, i, depth)].kind == BLOCK_END && DepthAt(d, i, FirstClose(d, i, depth), depth) == 0
    ensures forall j :: i <= j < FirstClose(d, i, depth) && d[j].kind == BLOCK_END ==> DepthAt(d, i, j, depth) > 0
    decreases |d| - i
  {
    if i < |d| && !(d[i].kind == BLOCK_END && depth == 0) {
      var c := FirstClose(d, i, depth);
      FirstCloseIsFirst(d, i + 1, Deeper(d[i], depth));
      forall j | i < j <= c && j < |d|
        ensures DepthAt(d, i, j, depth) == DepthAt(d, i + 1, j, Deeper(d[i], depth))
      {
      }
    }
  }

  /** Entering `k + 1` levels deeper than `depth`, the walk first meets the
      BLOCK_END that `depth` would stop at, and then carries on from it at
      depth `k`. */
  lemma {:induction false} FirstCloseDeeper(d: seq<Descriptor>, i: nat, depth: nat, k: nat)
    ensures FirstClose(d, i, depth + k + 1) ==
              if FirstClose(d, i, depth) < |d| then FirstClose(d, FirstClose(d, i, depth) + 1, k) else |d|
    decreases Remaining(d, i)
  {
    if i < |d| && !(d[i].kind == BLOCK_END && depth == 0) {
      assert Deeper(d[i], depth + k + 1) == Deeper(d[i], depth) + k + 1;
      FirstCloseDeeper(d, i + 1, Deeper(d[i], depth), k);
    }
  }

  /** The closing test accepts a BLOCK_END: always for a nested block, and
      for the block-0 root only when the scalar at `start` is 0. */
  predicate Closes(r: Reader, d: seq<Descriptor>, start: nat)
    requires start < |d|
  {
    d[start].kind == BLOCK_START || r.scalar(d[start].pos) == 0
  }

  /** `i` clipped to the directory. */
  function Clip(d: seq<Descriptor>, i: nat): nat {
    if i < |d| then i else |d|
  }

  /** The property `ScanCloses` establishes for one resumed scan: when the
      closing test can accept, the scan stops at the first BLOCK_END at its
      own level; otherwise it runs off the directory. */
  predicate ScanClosed(r: Reader, d: seq<Descriptor>, start: nat, at: nat, acc: Node)
    requires start < |d| && start <= at
    requires acc.block == BlockOf(r, d, start) && Filling(r, acc)
  {
    var end := Scan(r, d, start, at, acc).1;
    if Closes(r, d, start) then Clip(d, end) == FirstClose(d, at, 0) else |d| <= end
  }

  lemma {:induction false} ScanCloses(r: Reader, d: seq<Descriptor>, start: nat, at: nat, acc: Node)
    requires start < |d| && start <= at
    requires at == start ==> d[start].kind != BLOCK_START
    requires acc.block == BlockOf(r, d, start) && Filling(r, acc)
    ensures ScanClosed(r, d, start, at, acc)
    decreases Remaining(d, at), if at == start then 0 else 4
  {
    if Stops(r, d, start, at, acc) {
      StopStep(r, d, start, at, acc);
    } else if d[at].kind == BLOCK_START {
      ScanChildCloses(r, d, start, at, acc);
    } else if d[at].kind == BLOCK_END {
      ScanCloses(r, d, start, at + 1, acc);
      SkipStep(r, d, start, at, acc);
    } else {
      ScanCloses(r, d, start, at + 1, AddEntry(r, acc, d[at]));
      EntryCloses(r, d, start, at, acc);
    }
  }

  /** The nested-block case of `ScanCloses`. */
  lemma {:induction false} ScanChildCloses(r: Reader, d: seq<Descriptor>, start: nat, at: nat, acc: Node)
    requires start < at < |d| && d[at].kind == BLOCK_START
    requires acc.block == BlockOf(r, d, start) && Filling(r, acc)
    ensures ScanClosed(r, d, start, at, acc)
    decreases Remaining(d, at), 3
  {
    var last, acc' := Build(r, d, at).1, Adopt(r, acc, Build(r, d, at).0);
    ChildResumes(r, d, start, at, acc, last + 1, acc');
    BuildCloses(r, d, at);
    ScanCloses(r, d, start, last + 1, acc');
    ChildCloses(r, d, start, at, acc, last, acc', Scan(r, d, start, last + 1, acc').1);
  }

  /** The step of `ScanChildCloses`, with the child's stop index, the
      resumed node and the resumed scan's stop index named. */
  lemma ChildCloses(r: Reader, d: seq<Descriptor>, start: nat, at: nat, acc: Node, last: nat, acc': Node, end: nat)
    requires start < at < |d| && d[at].kind == BLOCK_START
    requires acc.block == BlockOf(r, d, start) && Filling(r, acc)
    requires last == Build(r, d, at).1 && acc' == Adopt(r, acc, Build(r, d, at).0)
    requires end == Scan(r, d, start, last + 1, acc').1 == Scan(r, d, start, at, acc).1
    requires Clip(d, last) == FirstClose(d, at + 1, 0)
    requires ScanClosed(r, d, start, last + 1, acc')
    ensures ScanClosed(r, d, start, at, acc)
  {
    if Closes(r, d, start) {
      PastBlock(d, at, last, end);
    }
  }

  /** The walk of `ChildCloses`: a BLOCK_START that the block ending at
      `last` closes hides every BLOCK_END up to `last` from its parent. */
  lemma PastBlock(d: seq<Descriptor>, at: nat, last: nat, end: nat)
    requires at < |d| && d[at].kind == BLOCK_START && last + 1 <= end
    requires Clip(d, last) == FirstClose(d, at + 1, 0)
    requires Clip(d, end) == FirstClose(d, last + 1, 0)
    ensures Clip(d, end) == FirstClose(d, at, 0)
  {
    FirstCloseDeeper(d, at + 1, 0, 0);
    assert FirstClose(d, at, 0) == FirstClose(d, at + 1, 1);
  }

  lemma EntryCloses(r: Reader, d: seq<Descriptor>, start: nat, at: nat, acc: Node)
    requires start <= at < |d| && !IsSentinel(d[at])
    requires acc.block == BlockOf(r, d, start) && Filling(r, acc)
    requires ScanClosed(r, d, start, at + 1, AddEntry(r, acc, d[at]))
    ensures ScanClosed(r, d, start, at, acc)
  {
    EntryStep(r, d, start, at, acc);
  }

  /** Where the node built at `start` stops: at the first BLOCK_END at its
      own level when the closing test can accept one, and past the end of
      the directory otherwise. */
  lemma {:induction false} BuildCloses(r: Reader, d: seq<Descriptor>, start: nat)
    requires start < |d|
    ensures Closes(r, d, start) ==> Clip(d, Build(r, d, start).1) == FirstClose(d, Inside(d, start), 0)
    ensures !Closes(r, d, start) ==> |d| <= Build(r, d, start).1
    decreases Remaining(d, start), 2
  {
    var acc := Fresh(BlockOf(r, d, start), d[start]);
    FreshFills(r, BlockOf(r, d, start), d[start]);
    assert Build(r, d, start) == Scan(r, d, start, start, acc);
    if d[start].kind == BLOCK_START {
      OpenStep(r, d, start, acc);
      ScanCloses(r, d, start, start + 1, acc);
    } else {
      ScanCloses(r, d, start, start, acc);
    }
  }

  /** The direct entries of the node built at `start` are exactly the plain
      descriptors a depth walk over `d[Inside..last]` meets at depth 0, in
      order: never a sentinel and never a descriptor of a nested block.  The
      node closes at the first BLOCK_END the walk meets at depth 0, unless
      it is the block-0 root and the scalar at `start` is not 0, in which
      case no BLOCK_END closes it. */
  lemma BuildLevels(r: Reader, d: seq<Descriptor>, start: nat)
    requires start < |d|
    ensures Inside(d, start) <= Build(r, d, start).1
    ensures Entries(Build(r, d, start).0) == Level(Span(d, Inside(d, start), Build(r, d, start).1), 0)
    ensures Closes(r, d, start) ==> Clip(d, Build(r, d, start).1) == FirstClose(d, Inside(d, start), 0)
    ensures !Closes(r, d, start) ==> |d| <= Build(r, d, start).1
  {
    BuildCloses(r, d, start);
    var acc := Fresh(BlockOf(r, d, start), d[start]);
    FreshFills(r, BlockOf(r, d, start), d[start]);
    assert Build(r, d, start) == Scan(r, d, start, start, acc);
    if d[start].kind == BLOCK_START {
      OpenStep(r, d, start, acc);
      ScanLevels(r, d, start, start + 1, acc);
    } else {
      ScanLevels(r, d, start, start, acc);
    }
    GatherIsWalk([], d, Inside(d, start), Build(r, d, start).1, 0);
    assert [] + Walk(d, Inside(d, start), Build(r, d, start).1, 0) == Walk(d, Inside(d, start), Build(r, d, start).1, 0);
    WalkIsLevel(d, Inside(d, start), Build(r, d, start).1, 0);
  }

  /** The indices of the BLOCK_STARTs a walk over `[i, j)`, entered at
      `depth`, meets at depth 0, in order: where the node's sub-blocks
      begin. */
  function Starts(d: seq<Descriptor>, i: nat, j: nat, depth: nat): (ss: seq<nat>)
    ensures forall k :: 0 <= k < |ss| ==> i <= ss[k] < j && ss[k] < |d| && d[ss[k]].kind == BLOCK_START
    decreases if i < j then j - i else 0
  {
    if i >= j || i >= |d| then []
    else if depth == 0 && d[i].kind == BLOCK_START then [i] + Starts(d, i + 1, j, Deeper(d[i], depth))
    else Starts(d, i + 1, j, Deeper(d[i], depth))
  }

  /** A walk over `[i, k)` meets the BLOCK_STARTs of one over `[i, j)` and
      then those of one over `[j, k)` entered where the first ended. */
  lemma {:induction false} StartsSplit(d: seq<Descriptor>, i: nat, j: nat, k: nat, depth: nat)
    requires i <= j <= k
    ensures Starts(d, i, k, depth) == Starts(d, i, j, depth) + Starts(d, j, k, DepthAt(d, i, j, depth))
    decreases j - i
  {
    if i < j && i < |d| {
      StartsSplit(d, i + 1, j, k, Deeper(d[i], depth));
      if depth == 0 && d[i].kind == BLOCK_START {
        var a, b := Starts(d, i + 1, j, Deeper(d[i], depth)), Starts(d, j, k, DepthAt(d, i, j, depth));
        assert [i] + (a + b) == [i] + a + b;
      }
    } else if i == j {
      assert Starts(d, i, j, depth) == [];
    } else {
      assert Starts(d, i, k, depth) == [] && Starts(d, j, k, DepthAt(d, i, j, depth)) == [];
    }
  }

  /** A walk entered one level deeper than `depth` meets no BLOCK_START at
      depth 0 up to and including the BLOCK_END `depth` would stop at, and
      is back at depth 0 just past it. */
  lemma {:induction false} StartsInside(d: seq<Descriptor>, i: nat, depth: nat)
    ensures Starts(d, i, FirstClose(d, i, depth) + 1, depth + 1) == []
    ensures FirstClose(d, i, depth) < |d| ==> DepthAt(d, i, FirstClose(d, i, depth) + 1, depth + 1) == 0
    decreases Remaining(d, i)
  {
    if i < |d| && !(d[i].kind == BLOCK_END && depth == 0) {
      assert Deeper(d[i], depth + 1) == Deeper(d[i], depth) + 1;
      StartsInside(d, i + 1, Deeper(d[i], depth));
    }
  }

  /** The BLOCK_STARTs of the walk of a node from one of its sub-blocks:
      the sub-block's own, then those after the BLOCK_END that closes it. */
  lemma PastBlockStarts(d: seq<Descriptor>, at: nat, last: nat, end: nat)
    requires at < |d| && d[at].kind == BLOCK_START && last + 1 <= end
    requires Clip(d, last) == FirstClose(d, at + 1, 0)
    ensures Starts(d, at, end, 0) == [at] + Starts(d, last + 1, end, 0)
  {
    var c := FirstClose(d, at + 1, 0);
    StartsInside(d, at + 1, 0);
    assert Starts(d, at, end, 0) == [at] + Starts(d, at + 1, end, 1);
    if c < |d| {
      StartsSplit(d, at + 1, c + 1, end, 1);
    } else {
      StartsSplit(d, at + 1, |d| + 1, end, 1);
      assert Starts(d, |d| + 1, end, DepthAt(d, at + 1, |d| + 1, 1)) == [];
      assert Starts(d, last + 1, end, 0) == [];
    }
  }

  /** The nodes built at the indices `ss`, in order. */
  function BuiltAt(r: Reader, d: seq<Descriptor>, ss: seq<nat>): (ns: seq<Node>)
    requires forall k :: 0 <= k < |ss| ==> ss[k] < |d|
    ensures |ns| == |ss|
  {
    if |ss| == 0 then [] else [Build(r, d, ss[0]).0] + BuiltAt(r, d, ss[1..])
  }

  /** The node at each position of `BuiltAt` is the one built at the index
      in the same position. */
  lemma {:induction false} BuiltAtIndex(r: Reader, d: seq<Descriptor>, ss: seq<nat>)
    requires forall k :: 0 <= k < |ss| ==> ss[k] < |d|
    ensures forall k :: 0 <= k < |ss| ==> BuiltAt(r, d, ss)[k] == Build(r, d, ss[k]).0
  {
    if |ss| > 0 {
      BuiltAtIndex(r, d, ss[1..]);
    }
  }

  /** The property `ScanChildren` establishes for one resumed scan: the
      node's children are those adopted so far followed by the blocks built
      at the BLOCK_STARTs the walk meets at depth 0 up to where the scan
      stops. */
  predicate ScanKids(r: Reader, d: seq<Descriptor>, start: nat, at: nat, acc: Node)
    requires start < |d| && start <= at
    requires acc.block == BlockOf(r, d, start) && Filling(r, acc)
  {
    var res := Scan(r, d, start, at, acc);
    res.0.children == acc.children + BuiltAt(r, d, Starts(d, at, res.1, 0))
  }

  lemma {:induction false} ScanChildren(r: Reader, d: seq<Descriptor>, start: nat, at: nat, acc: Node)
    requires start < |d| && start <= at
    requires at == start ==> d[start].kind != BLOCK_START
    requires acc.block == BlockOf(r, d, start) && Filling(r, acc)
    ensures ScanKids(r, d, start, at, acc)
    decreases Remaining(d, at), 1
  {
    if Stops(r, d, start, at, acc) {
      StopKids(r, d, start, at, acc);
    } else if d[at].kind == BLOCK_START {
      ScanChildKids(r, d, start, at, acc);
    } else if d[at].kind == BLOCK_END {
      ScanChildren(r, d, start, at + 1, acc);
      SkipKids(r, d, start, at, acc);
    } else {
      ScanChildren(r, d, start, at + 1, AddEntry(r, acc, d[at]));
      EntryKids(r, d, start, at, acc);
    }
  }

  /** The nested-block case of `ScanChildren`. */
  lemma {:induction false} ScanChildKids(r: Reader, d: seq<Descriptor>, start: nat, at: nat, acc: Node)
    requires start < at < |d| && d[at].kind == BLOCK_START
    requires acc.block == BlockOf(r, d, start) && Filling(r, acc)
    ensures ScanKids(r, d, start, at, acc)
    decreases Remaining(d, at), 0
  {
    var last, acc' := Build(r, d, at).1, Adopt(r, acc, Build(r, d, at).0);
    ChildResumes(r, d, start, at, acc, last + 1, acc');
    BuildCloses(r, d, at);
    ScanChildren(r, d, start, last + 1, acc');
    ChildKids(r, d, start, at, acc, last, acc', Scan(r, d, start, last + 1, acc'));
  }

  lemma StopKids(r: Reader, d: seq<Descriptor>, start: nat, at: nat, acc: Node)
    requires start < |d| && start <= at && Stops(r, d, start, at, acc)
    requires acc.block == BlockOf(r, d, start) && Filling(r, acc)
    ensures ScanKids(r, d, start, at, acc)
  {
    StopStep(r, d, start, at, acc);
    assert Starts(d, at, at, 0) == [];
    assert acc.children + [] == acc.children;
  }

  lemma SkipKids(r: Reader, d: seq<Descriptor>, start: nat, at: nat, acc: Node)
    requires start <= at < |d| && d[at].kind == BLOCK_END && !Stops(r, d, start, at, acc)
    requires acc.block == BlockOf(r, d, start) && Filling(r, acc)
    requires ScanKids(r, d, start, at + 1, acc)
    ensures ScanKids(r, d, start, at, acc)
  {
    SkipStep(r, d, start, at, acc);
  }

  lemma EntryKids(r: Reader, d: seq<Descriptor>, start: nat, at: nat, acc: Node)
    requires start <= at < |d| && !IsSentinel(d[at])
    requires acc.block == BlockOf(r, d, start) && Filling(r, acc)
    requires ScanKids(r, d, start, at + 1, AddEntry(r, acc, d[at]))
    ensures ScanKids(r, d, start, at, acc)
  {
    EntryStep(r, d, start, at, acc);
  }

  /** The nested-block step of `ScanChildren`, with the child's stop
      index, the resumed node and the resumed scan named. */
  lemma ChildKids(r: Reader, d: seq<Descriptor>, start: nat, at: nat, acc: Node, last: nat, acc': Node, res: (Node, nat))
    requires start < at < |d| && d[at].kind == BLOCK_START
    requires acc.block == BlockOf(r, d, start) && Filling(r, acc)
    requires last == Build(r, d, at).1 && acc' == Adopt(r, acc, Build(r, d, at).0)
    requires res == Scan(r, d, start, last + 1, acc') == Scan(r, d, start, at, acc)
    requires Clip(d, last) == FirstClose(d, at + 1, 0)
    requires ScanKids(r, d, start, last + 1, acc')
    ensures ScanKids(r, d, start, at, acc)
  {
    PastBlockStarts(d, at, last, res.1);
    KidsJoin(r, d, res.0.children, acc.children, at, Starts(d, last + 1, res.1, 0));
  }

  /** Children adopted so far, one more built at `at`, then those built at
      `rest`: the ones built at `[at] + rest` follow those adopted so far. */
  lemma KidsJoin(r: Reader, d: seq<Descriptor>, kids: seq<Node>, before: seq<Node>, at: nat, rest: seq<nat>)
    requires at < |d| && forall k :: 0 <= k < |rest| ==> rest[k] < |d|
    requires kids == before + [Build(r, d, at).0] + BuiltAt(r, d, rest)
    ensures kids == before + BuiltAt(r, d, [at] + rest)
  {
    BuiltAtCons(r, d, at, rest);
    Regroup(kids, before, Build(r, d, at).0, BuiltAt(r, d, rest), BuiltAt(r, d, [at] + rest));
  }

  lemma BuiltAtCons(r: Reader, d: seq<Descriptor>, at: nat, rest: seq<nat>)
    requires at < |d| && forall k :: 0 <= k < |rest| ==> rest[k] < |d|
    ensures BuiltAt(r, d, [at] + rest) == [Build(r, d, at).0] + BuiltAt(r, d, rest)
  {
    assert ([at] + rest)[0] == at && ([at] + rest)[1..] == rest;
  }

  lemma Regroup<T>(whole: seq<T>, before: seq<T>, x: T, t: seq<T>, tail: seq<T>)
    requires whole == before + [x] + t && tail == [x] + t
    ensures whole == before + tail
  {
  }

  /** The children of the node built at `start` are exactly the blocks
      built at the BLOCK_STARTs a depth walk over `d[Inside..last]` meets at
      depth 0, in order.  The node's own BLOCK_START is never among them. */
  lemma BuildChildren(r: Reader, d: seq<Descriptor>, start: nat)
    requires start < |d|
    ensures |Build(r, d, start).0.children| == |Starts(d, Inside(d, start), Build(r, d, start).1, 0)|
    ensures forall k :: 0 <= k < |Build(r, d, start).0.children| ==>
              && start < Starts(d, Inside(d, start), Build(r, d, start).1, 0)[k] < |d|
              && Build(r, d, start).0.children[k] == Build(r, d, Starts(d, Inside(d, start), Build(r, d, start).1, 0)[k]).0
  {
    BuildKids(r, d, start);
    ChildrenAt(r, d, start, Build(r, d, start).0.children, Starts(d, Inside(d, start), Build(r, d, start).1, 0));
  }

  /** `BuildChildren` as one sequence equation. */
  lemma BuildKids(r: Reader, d: seq<Descriptor>, start: nat)
    requires start < |d|
    ensures Build(r, d, start).0.children == BuiltAt(r, d, Starts(d, Inside(d, start), Build(r, d, start).1, 0))
  {
    var acc := Fresh(BlockOf(r, d, start), d[start]);
    FreshFills(r, BlockOf(r, d, start), d[start]);
    assert Build(r, d, start) == Scan(r, d, start, start, acc);
    if d[start].kind == BLOCK_START {
      OpenStep(r, d, start, acc);
      ScanChildren(r, d, start, start + 1, acc);
    } else {
      ScanChildren(r, d, start, start, acc);
    }
    assert [] + BuiltAt(r, d, Starts(d, Inside(d, start), Build(r, d, start).1, 0))
        == BuiltAt(r, d, Starts(d, Inside(d, start), Build(r, d, start).1, 0));
  }

  /** Reads `BuiltAt` position by position. */
  lemma ChildrenAt(r: Reader, d: seq<Descriptor>, start: nat, kids: seq<Node>, ss: seq<nat>)
    requires start < |d|
    requires forall k :: 0 <= k < |ss| ==> Inside(d, start) <= ss[k] < |d| && d[ss[k]].kind == BLOCK_START
    requires kids == BuiltAt(r, d, ss)
    ensures |kids| == |ss|
    ensures forall k :: 0 <= k < |kids| ==> start < ss[k] < |d| && kids[k] == Build(r, d, ss[k]).0
  {
    BuiltAtIndex(r, d, ss);
  }

  /** A block holding two sub-blocks, each with one plain entry. */
  function TwoSubBlocks(): seq<Descriptor> {
    [Descriptor(BLOCK_START, 0, 0, 0), Descriptor(BLOCK_START, 0, 0, 1), Descriptor(1, 0, 0, 2), Descriptor(BLOCK_END, 0, 0, 3),
     Descriptor(BLOCK_START, 0, 0, 4), Descriptor(2, 0, 0, 5), Descriptor(BLOCK_END, 0, 0, 6), Descriptor(BLOCK_END, 0, 0, 7)]
  }

  /** On `TwoSubBlocks()` the outer block stops at its own BLOCK_END and
      has the two sub-blocks as separate children, built at indices 1 and
      4. */
  lemma TwoSubBlocksAreTwoChildren(r: Reader)
    ensures Build(r, TwoSubBlocks(), 0).1 == 7
    ensures Build(r, TwoSubBlocks(), 0).0.children == [Build(r, TwoSubBlocks(), 1).0, Build(r, TwoSubBlocks(), 4).0]
  {
    var d := TwoSubBlocks();
    assert FirstClose(d, 7, 0) == 7;
    assert FirstClose(d, 4, 0) == FirstClose(d, 5, 1) == FirstClose(d, 6, 1) == FirstClose(d, 7, 0);
    assert FirstClose(d, 1, 0) == FirstClose(d, 2, 1) == FirstClose(d, 3, 1) == FirstClose(d, 4, 0);
    assert Starts(d, 4, 7, 0) == [4] + Starts(d, 5, 7, 1) && Starts(d, 5, 7, 1) == Starts(d, 6, 7, 1) == [];
    assert Starts(d, 1, 7, 0) == [1] + Starts(d, 2, 7, 1);
    assert Starts(d, 2, 7, 1) == Starts(d, 3, 7, 1) == Starts(d, 4, 7, 0);
    TwoSubBlocksBuilt(r, d);
  }

  /** The general lemmas instantiated at index 0 of `d`. */
  lemma TwoSubBlocksBuilt(r: Reader, d: seq<Descriptor>)
    requires d == TwoSubBlocks() && FirstClose(d, 1, 0) == 7 && Starts(d, 1, 7, 0) == [1, 4]
    ensures Build(r, d, 0).1 == 7
    ensures Build(r, d, 0).0.children == [Build(r, d, 1).0, Build(r, d, 4).0]
  {
    BuildCloses(r, d, 0);
    assert Inside(d, 0) == 1;
    BuildChildren(r, d, 0);
  }
}

=== FILE: readback.dfy ===
/** Reading a written trace back: a trace of writer calls laid out as a
    file, one tag per call, and what `make_dir_tree` builds from it. */
module ReadBack {
  import opened Wrappers
  import opened Fiff
  import opened DirTree
  import opened CopyTree
  import opened Bounds

  /** The tag kind under which a written record is read back. */
  function KindOf(e: Event): int {
    match e
    case StartBlock(_) => BLOCK_START
    case EndBlock(_) => BLOCK_END
    case WriteId(k, _) => k
    case Raw(k, _, _) => k
  }

  /** The directory of a written trace, with record `i` at position `i`.
      Raw records keep their type and size; the writer's type and size for
      block and identity records play no part in the engine and read as 0. */
  function OutDirectory(t: seq<Event>): (d: seq<Descriptor>)
    ensures |d| == |t|
    ensures forall i :: 0 <= i < |t| ==> d[i].kind == KindOf(t[i]) && d[i].pos == i
  {
    seq(|t|, i requires 0 <= i < |t| =>
      match t[i]
      case Raw(k, ty, data) => Descriptor(k, ty, |data|, i)
      case _ => Descriptor(KindOf(t[i]), 0, 0, i))
  }

  /** The payloads of the written trace as the reader decodes them: the
      block kind of a start or end record, the identifier of an identity
      record.  Other positions are never decoded by the builder. */
  function OutReader(t: seq<Event>): Reader {
    Reader(
      (pos: int) => if 0 <= pos < |t| && (t[pos].StartBlock? || t[pos].EndBlock?) then t[pos].block else 0,
      (pos: int) => if 0 <= pos < |t| && t[pos].WriteId? && t[pos].value.Some? then t[pos].value.value else Ident([]))
  }

  /** A directory and a reader that describe the trace `t` faithfully:
      entry `x` is the tag at position `x`, its kind is the record's kind,
      and decoding it gives the block kind or identifier written. */
  predicate Reads(r: Reader, d: seq<Descriptor>, t: seq<Event>) {
    && |d| == |t|
    && forall x {:trigger d[x]} :: 0 <= x < |t| ==>
      && d[x].kind == KindOf(t[x]) && d[x].pos == x
      && (IsBracket(t[x]) ==> r.scalar(x) == t[x].block)
      && (t[x].WriteId? && t[x].value.Some? ==> r.ident(x) == t[x].value.value)
  }

  lemma OutReads(t: seq<Event>)
    ensures Reads(OutReader(t), OutDirectory(t), t)
  {
  }

  /** A tree of written records: each block with its identity, its own
      records in order and its sub-blocks in order. */
  datatype Image = Image(block: int, id: Option<Ident>, parentId: Option<Ident>, records: seq<Event>, children: seq<Image>)

  /** The trace of an image: start record, own records, the sub-blocks,
      end record. */
  function Emit(img: Image): seq<Event>
    decreases img, 1
  {
    ([StartBlock(img.block)] + img.records) + EmitAll(img.children) + [EndBlock(img.block)]
  }

  function EmitAll(imgs: seq<Image>): seq<Event>
    decreases imgs, 0
  {
    if |imgs| == 0 then [] else Emit(imgs[0]) + EmitAll(imgs[1..])
  }

  function ImageSize(img: Image): nat {
    1 + ImageSizeAll(img.children)
  }

  function ImageSizeAll(imgs: seq<Image>): nat {
    if |imgs| == 0 then 0 else ImageSize(imgs[0]) + ImageSizeAll(imgs[1..])
  }

  /** A record the builder takes as a plain entry: neither a block record
      nor a record of a sentinel kind. */
  predicate IsRecord(e: Event) {
    !IsBracket(e) && KindOf(e) != BLOCK_START && KindOf(e) != BLOCK_END
  }

  /** A plain record that, when it is of an identity kind the builder
      decodes, carries an identifier. */
  predicate Legal(e: Event) {
    IsRecord(e) && (KindOf(e) == BLOCK_ID || KindOf(e) == PARENT_BLOCK_ID ==> e.WriteId? && e.value.Some?)
  }

  /** An image the builder can read back: no block of kind 0 (a start
      record of kind 0 reads back as the file-level root) and only legal
      records. */
  predicate Legible(img: Image) {
    && img.block != 0
    && (forall j :: 0 <= j < |img.records| ==> Legal(img.records[j]))
    && forall i :: 0 <= i < |img.children| ==> Legible(img.children[i])
  }

  /** The identifier of the last identity record of kind `kind`. */
  function LastId(rs: seq<Event>, kind: int): Option<Ident> {
    if |rs| == 0 then None
    else if KindOf(rs[|rs| - 1]) == kind && rs[|rs| - 1].WriteId? then rs[|rs| - 1].value
    else LastId(rs[..|rs| - 1], kind)
  }

  /** The image as the builder sees it: identities are those of the last
      BLOCK_ID and PARENT_BLOCK_ID records. */
  function Read(img: Image): Image
    decreases img, 1
  {
    Image(img.block, LastId(img.records, BLOCK_ID), LastId(img.records, PARENT_BLOCK_ID), img.records, ReadAll(img.children))
  }

  function ReadAll(imgs: seq<Image>): (rs: seq<Image>)
    ensures |rs| == |imgs|
    decreases imgs, 0
  {
    seq(|imgs|, i requires 0 <= i < |imgs| => Read(imgs[i]))
  }

  /** The records at the positions of `es`; a position outside the trace
      shows as an empty raw record. */
  function Records(t: seq<Event>, es: seq<Descriptor>): (rs: seq<Event>)
    ensures |rs| == |es|
  {
    seq(|es|, j requires 0 <= j < |es| => if 0 <= es[j].pos < |t| then t[es[j].pos] else Raw(0, 0, []))
  }

  /** A built tree, read against the trace it was built from. */
  function View(t: seq<Event>, n: Node): Image
    decreases n, 1
  {
    Image(n.block, n.id, n.parentId, Records(t, Entries(n)), ViewAll(t, n.children))
  }

  function ViewAll(t: seq<Event>, ns: seq<Node>): (vs: seq<Image>)
    ensures |vs| == |ns|
    decreases ns, 0
  {
    seq(|ns|, i requires 0 <= i < |ns| => View(t, ns[i]))
  }

  /** The builder's identity of a run of records is the last identity
      record of the kind. */
  lemma {:induction false} LastIdentReads(r: Reader, d: seq<Descriptor>, t: seq<Event>, i: nat, k: nat, kind: int)
    requires Reads(r, d, t) && i <= k <= |t|
    requires kind == BLOCK_ID || kind == PARENT_BLOCK_ID
    requires forall x :: i <= x < k ==> Legal(t[x])
    ensures LastIdent(r, d[i..k], kind) == LastId(t[i..k], kind)
    decreases k
  {
    if k > i {
      assert d[i..k][..k - i - 1] == d[i..k - 1];
      assert t[i..k][..k - i - 1] == t[i..k - 1];
      assert d[i..k][k - i - 1] == d[k - 1];
      assert t[i..k][k - i - 1] == t[k - 1];
      LastIdentReads(r, d, t, i, k - 1, kind);
    }
  }

  /** A window of a window. */
  lemma SliceOfSlice<T>(t: seq<T>, base: nat, w: seq<T>, a: nat, b: nat)
    requires base + |w| <= |t| && t[base..base + |w|] == w && a <= b <= |w|
    ensures t[base + a..base + b] == w[a..b]
  {
    forall x | 0 <= x < b - a ensures t[base + a..base + b][x] == w[a..b][x] {
      assert t[base..base + |w|][a + x] == t[base + a + x];
    }
  }

  /** An image's trace laid out in a longer trace: where its pieces sit. */
  lemma Layout(t: seq<Event>, base: nat, img: Image, k: nat)
    requires base + |Emit(img)| <= |t| && t[base..base + |Emit(img)|] == Emit(img)
    requires k == base + 1 + |img.records|
    ensures OwnLaidOut(t, img, base, k)
    ensures t[k..k + |EmitAll(img.children)|] == EmitAll(img.children)
    ensures k + |EmitAll(img.children)| < |t|
    ensures t[k + |EmitAll(img.children)|] == EndBlock(img.block)
    ensures base + |Emit(img)| - 1 == k + |EmitAll(img.children)|
  {
    Parts(t, base, StartBlock(img.block), img.records, EmitAll(img.children), EndBlock(img.block));
  }

  /** The four parts of a bracketed run `w` found at `base` in `t`. */
  lemma Parts<T>(t: seq<T>, base: nat, open: T, own: seq<T>, inner: seq<T>, close: T)
    requires base + |[open] + own + inner + [close]| <= |t|
    requires t[base..base + |[open] + own + inner + [close]|] == [open] + own + inner + [close]
    ensures t[base] == open
    ensures t[base + 1..base + 1 + |own|] == own
    ensures t[base + 1 + |own|..base + 1 + |own| + |inner|] == inner
    ensures t[base + 1 + |own| + |inner|] == close
  {
    var w := [open] + own + inner + [close];
    var m := 1 + |own|;
    assert t[base..base + |w|][0] == t[base];
    assert t[base..base + |w|][m + |inner|] == t[base + m + |inner|];
    SliceOfSlice(t, base, w, 1, m);
    assert w[1..m] == own;
    SliceOfSlice(t, base, w, m, m + |inner|);
    assert w[m..m + |inner|] == inner;
  }

  /** Records that are not block records are read back as plain entries. */
  lemma PlainRun(r: Reader, d: seq<Descriptor>, t: seq<Event>, i: nat, k: nat)
    requires Reads(r, d, t) && i <= k <= |t|
    requires forall x :: i <= x < k ==> IsRecord(t[x])
    ensures AllPlain(d[i..k])
    ensures Records(t, d[i..k]) == t[i..k]
  {
    forall x | 0 <= x < k - i ensures !IsSentinel(d[i..k][x]) {
      assert d[i..k][x] == d[i + x];
    }
    forall x | 0 <= x < k - i ensures Records(t, d[i..k])[x] == t[i..k][x] {
      assert d[i..k][x] == d[i + x];
    }
  }

  /** The records of a block laid out after its start record. */
  predicate OwnLaidOut(t: seq<Event>, img: Image, base: nat, k: nat) {
    && base + 1 + |img.records| == k <= |t|
    && t[base] == StartBlock(img.block)
    && t[base + 1..k] == img.records
  }

  lemma OwnRecords(t: seq<Event>, img: Image, base: nat, k: nat)
    requires OwnLaidOut(t, img, base, k) && Legible(img)
    ensures forall x :: base + 1 <= x < k ==> Legal(t[x])
  {
    forall x | base + 1 <= x < k ensures Legal(t[x]) {
      assert t[x] == t[base + 1..k][x - base - 1];
    }
  }

  /** Scanning the own records of a block: they are collected as entries,
      in order, and the scan stands after them. */
  lemma RecordsPhase(r: Reader, d: seq<Descriptor>, t: seq<Event>, img: Image, base: nat, k: nat)
    requires Reads(r, d, t) && Legible(img) && OwnLaidOut(t, img, base, k)
    ensures BlockOf(r, d, base) == img.block
    ensures AllPlain(d[base + 1..k])
    ensures Build(r, d, base) == Scan(r, d, base, k, Opened(r, d, base, k))
    ensures Records(t, d[base + 1..k]) == img.records
  {
    OwnRecords(t, img, base, k);
    PlainRun(r, d, t, base + 1, k);
    assert d[base].kind == BLOCK_START && d[base].pos == base;
    LeadingRun(r, d, base, k);
  }

  /** The identity the block is read back with. */
  lemma IdentityPhase(r: Reader, d: seq<Descriptor>, t: seq<Event>, img: Image, base: nat, k: nat)
    requires Reads(r, d, t) && Legible(img) && OwnLaidOut(t, img, base, k)
    requires AllPlain(d[base + 1..k])
    ensures Opened(r, d, base, k).id == LastId(img.records, BLOCK_ID)
    ensures Opened(r, d, base, k).parentId == LastId(img.records, PARENT_BLOCK_ID)
    ensures Opened(r, d, base, k).children == []
  {
    OwnRecords(t, img, base, k);
    LastIdentReads(r, d, t, base + 1, k, BLOCK_ID);
    LastIdentReads(r, d, t, base + 1, k, PARENT_BLOCK_ID);
    assert Opened(r, d, base, k).block == img.block && img.block != 0;
  }

  /** The state in which the builder meets the sub-blocks `imgs` of the
      block opened at `start`: their traces sit at `at`, followed by the
      end record of that block, and `acc` holds the block so far. */
  predicate ScanReady(r: Reader, d: seq<Descriptor>, t: seq<Event>, imgs: seq<Image>, start: nat, at: nat, acc: Node) {
    && Reads(r, d, t) && (forall i :: 0 <= i < |imgs| ==> Legible(imgs[i]))
    && start < at && at + |EmitAll(imgs)| < |t|
    && t[start] == StartBlock(acc.block)
    && t[at..at + |EmitAll(imgs)|] == EmitAll(imgs)
    && t[at + |EmitAll(imgs)|] == EndBlock(acc.block)
    && acc.block == BlockOf(r, d, start) && Filling(r, acc)
  }

  /** The start record and own records of a block: after them the builder
      is ready for the sub-blocks, holding the block's entries and
      identity. */
  lemma OpenImage(r: Reader, d: seq<Descriptor>, t: seq<Event>, img: Image, base: nat, k: nat)
    requires Reads(r, d, t) && Legible(img)
    requires base + |Emit(img)| <= |t| && t[base..base + |Emit(img)|] == Emit(img)
    requires k == base + 1 + |img.records|
    ensures BlockOf(r, d, base) == img.block && AllPlain(d[base + 1..k])
    ensures Build(r, d, base) == Scan(r, d, base, k, Opened(r, d, base, k))
    ensures ScanReady(r, d, t, img.children, base, k, Opened(r, d, base, k))
    ensures base + |Emit(img)| - 1 == k + |EmitAll(img.children)|
    ensures Opened(r, d, base, k).id == LastId(img.records, BLOCK_ID)
    ensures Opened(r, d, base, k).parentId == LastId(img.records, PARENT_BLOCK_ID)
    ensures Opened(r, d, base, k).children == []
    ensures Records(t, Collected(Opened(r, d, base, k))) == img.records
  {
    Layout(t, base, img, k);
    RecordsPhase(r, d, t, img, base, k);
    IdentityPhase(r, d, t, img, base, k);
  }

  /** Building from the start record of a legible image's trace stops at
      its end record and finds the image, with the identities the builder
      decodes. */
  lemma {:induction false} BuildsImage(r: Reader, d: seq<Descriptor>, t: seq<Event>, img: Image, base: nat)
    requires Reads(r, d, t) && Legible(img)
    requires base + |Emit(img)| <= |t| && t[base..base + |Emit(img)|] == Emit(img)
    ensures base < |t|
    ensures Build(r, d, base).1 == base + |Emit(img)| - 1
    ensures View(t, Build(r, d, base).0) == Read(img)
    decreases ImageSize(img), 0
  {
    var k := base + 1 + |img.records|;
    OpenImage(r, d, t, img, base, k);
    var acc := Opened(r, d, base, k);
    ScanImages(r, d, t, img.children, base, k, acc);
    var node := Scan(r, d, base, k, acc).0;
    assert ViewAll(t, acc.children) + ReadAll(img.children) == ReadAll(img.children);
    ViewIsRead(t, node, img);
  }

  /** A node shows as the image read back when each part agrees. */
  lemma ViewIsRead(t: seq<Event>, node: Node, img: Image)
    requires node.block == img.block
    requires node.id == LastId(img.records, BLOCK_ID) && node.parentId == LastId(img.records, PARENT_BLOCK_ID)
    requires Records(t, Entries(node)) == img.records
    requires ViewAll(t, node.children) == ReadAll(img.children)
    ensures View(t, node) == Read(img)
  {
  }

  /** What scanning the remaining sub-blocks `imgs` of a block from `at`
      with the node `acc` yields: the scan stops on the block's end record,
      keeps the identities and entries gathered so far, and adds one child
      per sub-block, each seen as its image read back. */
  predicate ScanDone(t: seq<Event>, res: (Node, nat), at: nat, acc: Node, imgs: seq<Image>) {
    && res.1 == at + |EmitAll(imgs)|
    && res.0.id == acc.id && res.0.parentId == acc.parentId
    && Entries(res.0) == Collected(acc)
    && ViewAll(t, res.0.children) == ViewAll(t, acc.children) + ReadAll(imgs)
  }

  /** The sub-blocks of a block, read back one after the other up to the
      block's end record. */
  lemma {:induction false} ScanImages(r: Reader, d: seq<Descriptor>, t: seq<Event>, imgs: seq<Image>,
                                      start: nat, at: nat, acc: Node)
    requires ScanReady(r, d, t, imgs, start, at, acc)
    ensures ScanDone(t, Scan(r, d, start, at, acc), at, acc, imgs)
    decreases ImageSizeAll(imgs), 4
  {
    if |imgs| == 0 {
      NoMoreImages(r, d, t, imgs, start, at, acc);
    } else {
      LaterImages(r, d, t, imgs, start, at, acc);
    }
  }

  /** At least one sub-block left: the first is adopted, then the rest are
      scanned. */
  lemma {:induction false} LaterImages(r: Reader, d: seq<Descriptor>, t: seq<Event>, imgs: seq<Image>,
                                       start: nat, at: nat, acc: Node)
    requires ScanReady(r, d, t, imgs, start, at, acc) && |imgs| > 0
    ensures ScanDone(t, Scan(r, d, start, at, acc), at, acc, imgs)
    decreases ImageSizeAll(imgs), 3
  {
    var at', acc' := NextImage(r, d, t, imgs, start, at, acc);
    ScanImages(r, d, t, imgs[1..], start, at', acc');
    JoinImage(r, d, t, imgs, start, at, acc, at', acc');
  }

  /** No sub-block left: the end record closes the block. */
  lemma NoMoreImages(r: Reader, d: seq<Descriptor>, t: seq<Event>, imgs: seq<Image>, start: nat, at: nat, acc: Node)
    requires ScanReady(r, d, t, imgs, start, at, acc) && |imgs| == 0
    ensures ScanDone(t, Scan(r, d, start, at, acc), at, acc, imgs)
  {
    assert d[at].kind == BLOCK_END && d[start].pos == start;
    CloseStep(r, d, start, at, acc);
    assert ViewAll(t, acc.children) + ReadAll(imgs) == ViewAll(t, acc.children);
  }

  /** The first of the remaining sub-blocks: it is built, adopted, and
      the builder is ready for the later sub-blocks right after its end
      record. */
  lemma {:induction false} NextImage(r: Reader, d: seq<Descriptor>, t: seq<Event>, imgs: seq<Image>,
                                     start: nat, at: nat, acc: Node)
      returns (at': nat, acc': Node)
    requires ScanReady(r, d, t, imgs, start, at, acc) && |imgs| > 0
    ensures at < |d| && Built(r, Build(r, d, at).0)
    ensures at' == at + |Emit(imgs[0])| && acc' == Adopt(r, acc, Build(r, d, at).0)
    ensures ScanReady(r, d, t, imgs[1..], start, at', acc')
    ensures ImageSizeAll(imgs[1..]) < ImageSizeAll(imgs)
    decreases ImageSizeAll(imgs), 2
  {
    FirstChild(r, d, t, imgs, start, at, acc);
    RestReady(r, d, t, imgs, start, at, acc, Build(r, d, at).0);
    at', acc' := at + |Emit(imgs[0])|, Adopt(r, acc, Build(r, d, at).0);
  }

  /** Adopting the first sub-block and scanning the rest is scanning them
      all. */
  lemma {:induction false} JoinImage(r: Reader, d: seq<Descriptor>, t: seq<Event>, imgs: seq<Image>,
                                     start: nat, at: nat, acc: Node, at': nat, acc': Node)
    requires ScanReady(r, d, t, imgs, start, at, acc) && |imgs| > 0
    requires at < |d| && Built(r, Build(r, d, at).0)
    requires at' == at + |Emit(imgs[0])| && acc' == Adopt(r, acc, Build(r, d, at).0)
    requires ScanReady(r, d, t, imgs[1..], start, at', acc')
    requires ScanDone(t, Scan(r, d, start, at', acc'), at', acc', imgs[1..])
    ensures ScanDone(t, Scan(r, d, start, at, acc), at, acc, imgs)
    decreases ImageSizeAll(imgs), 2
  {
    FirstChild(r, d, t, imgs, start, at, acc);
    ReadyResumes(r, d, t, imgs, start, at, acc, at', acc');
    assert EmitAll(imgs) == Emit(imgs[0]) + EmitAll(imgs[1..]);
    OneMoreImage(r, t, Scan(r, d, start, at', acc'), at, acc, Build(r, d, at).0, imgs, at', acc');
  }

  /** The parts of a scan that adopts one sub-block and then scans the
      rest add up to a scan of them all. */
  lemma OneMoreImage(r: Reader, t: seq<Event>, res: (Node, nat), at: nat, acc: Node, child: Node, imgs: seq<Image>,
                      at': nat, acc': Node)
    requires |imgs| > 0 && Filling(r, acc) && Built(r, child) && View(t, child) == Read(imgs[0])
    requires |EmitAll(imgs)| == |Emit(imgs[0])| + |EmitAll(imgs[1..])|
    requires at' == at + |Emit(imgs[0])| && acc' == Adopt(r, acc, child)
    requires ScanDone(t, res, at', acc', imgs[1..])
    ensures ScanDone(t, res, at, acc, imgs)
  {
    JoinViews(t, acc.children, child, imgs, ViewAll(t, res.0.children));
  }

  /** The first of the remaining sub-blocks is built as its image
      promises and ends just before the trace of the later ones. */
  lemma {:induction false} FirstChild(r: Reader, d: seq<Descriptor>, t: seq<Event>, imgs: seq<Image>,
                                      start: nat, at: nat, acc: Node)
    requires ScanReady(r, d, t, imgs, start, at, acc) && |imgs| > 0
    ensures start < at < |d| && d[at].kind == BLOCK_START && Built(r, Build(r, d, at).0)
    ensures View(t, Build(r, d, at).0) == Read(imgs[0])
    ensures Build(r, d, at).1 + 1 == at + |Emit(imgs[0])|
    decreases ImageSizeAll(imgs), 1
  {
    FirstImageAt(r, d, t, imgs, start, at, acc);
    BuildsImage(r, d, t, imgs[0], at);
  }

  /** The same, in the state the builder meets the sub-blocks in. */
  lemma ReadyResumes(r: Reader, d: seq<Descriptor>, t: seq<Event>, imgs: seq<Image>, start: nat, at: nat, acc: Node,
                      at': nat, acc': Node)
    requires ScanReady(r, d, t, imgs, start, at, acc) && |imgs| > 0
    requires start < at < |d| && d[at].kind == BLOCK_START
    requires Build(r, d, at).1 + 1 == at' && acc' == Adopt(r, acc, Build(r, d, at).0)
    ensures Scan(r, d, start, at, acc) == Scan(r, d, start, at', acc')
  {
    ChildResumes(r, d, start, at, acc, at', acc');
  }

  /** Where the first of the remaining sub-blocks sits. */
  lemma FirstImageAt(r: Reader, d: seq<Descriptor>, t: seq<Event>, imgs: seq<Image>, start: nat, at: nat, acc: Node)
    requires ScanReady(r, d, t, imgs, start, at, acc) && |imgs| > 0
    ensures Reads(r, d, t) && Legible(imgs[0])
    ensures at + |Emit(imgs[0])| <= |t| && t[at..at + |Emit(imgs[0])|] == Emit(imgs[0])
    ensures start < at < |d| && d[at].kind == BLOCK_START
  {
    var first, others := Emit(imgs[0]), EmitAll(imgs[1..]);
    var all := EmitAll(imgs);
    assert all == first + others;
    SliceOfSlice(t, at, all, 0, |first|);
    assert all[..|first|] == first;
    assert t[at] == first[0];
  }

  /** Once the first sub-block is adopted, the builder is ready for the
      others. */
  lemma RestReady(r: Reader, d: seq<Descriptor>, t: seq<Event>, imgs: seq<Image>, start: nat, at: nat, acc: Node, child: Node)
    requires ScanReady(r, d, t, imgs, start, at, acc) && |imgs| > 0 && Built(r, child)
    ensures ScanReady(r, d, t, imgs[1..], start, at + |Emit(imgs[0])|, Adopt(r, acc, child))
    ensures |EmitAll(imgs)| == |Emit(imgs[0])| + |EmitAll(imgs[1..])|
    ensures ImageSizeAll(imgs[1..]) < ImageSizeAll(imgs)
  {
    RestLaidOut(t, imgs, at);
    RestLegible(imgs);
  }

  /** The later sub-blocks are legible and smaller than the whole list. */
  lemma RestLegible(imgs: seq<Image>)
    requires |imgs| > 0 && forall i :: 0 <= i < |imgs| ==> Legible(imgs[i])
    ensures forall i :: 0 <= i < |imgs[1..]| ==> Legible(imgs[1..][i])
    ensures ImageSizeAll(imgs[1..]) < ImageSizeAll(imgs)
  {
    assert forall i :: 0 <= i < |imgs[1..]| ==> imgs[1..][i] == imgs[i + 1];
  }

  /** The traces of the later sub-blocks follow that of the first. */
  lemma RestLaidOut(t: seq<Event>, imgs: seq<Image>, at: nat)
    requires |imgs| > 0 && at + |EmitAll(imgs)| <= |t| && t[at..at + |EmitAll(imgs)|] == EmitAll(imgs)
    ensures |EmitAll(imgs)| == |Emit(imgs[0])| + |EmitAll(imgs[1..])|
    ensures t[at + |Emit(imgs[0])|..at + |EmitAll(imgs)|] == EmitAll(imgs[1..])
  {
    var first, others, all := Emit(imgs[0]), EmitAll(imgs[1..]), EmitAll(imgs);
    assert all == first + others;
    SliceOfSlice(t, at, all, |first|, |all|);
    assert all[|first|..] == others;
  }

  /** The views of the sub-blocks seen so far, one more sub-block, and
      the rest read back, line up with the whole list read back. */
  lemma JoinViews(t: seq<Event>, prior: seq<Node>, child: Node, imgs: seq<Image>, got: seq<Image>)
    requires |imgs| > 0 && View(t, child) == Read(imgs[0])
    requires got == ViewAll(t, prior + [child]) + ReadAll(imgs[1..])
    ensures got == ViewAll(t, prior) + ReadAll(imgs)
  {
    ViewAllSnoc(t, prior, child);
    assert ReadAll(imgs) == [Read(imgs[0])] + ReadAll(imgs[1..]);
    assert (ViewAll(t, prior) + [Read(imgs[0])]) + ReadAll(imgs[1..]) == ViewAll(t, prior) + ReadAll(imgs);
  }

  lemma ViewAllSnoc(t: seq<Event>, ns: seq<Node>, n: Node)
    ensures ViewAll(t, ns + [n]) == ViewAll(t, ns) + [View(t, n)]
  {
    assert forall i :: 0 <= i < |ns| ==> (ns + [n])[i] == ns[i];
  }

  /** Reading back the trace of a legible image: `make_dir_tree` from the
      first record succeeds, stops at the last record, and finds every
      block with its kind, its records in order and its sub-blocks in
      order, each identity taken from the last identity record.  The
      clipped builder returns the same. */
  lemma ReadsBackImage(img: Image)
    requires Legible(img)
    ensures var t := Emit(img);
      var res := MakeDirTree(OutReader(t), OutDirectory(t), 0);
      && res.Success?
      && res.value.1 == |t| - 1
      && View(t, res.value.0) == Read(img)
      && MakeDirTreeClipped(OutReader(t), OutDirectory(t), 0) == res
  {
    var t := Emit(img);
    assert t[0..|t|] == t;
    OutReads(t);
    BuildsImage(OutReader(t), OutDirectory(t), t, img, 0);
    ClippedAgrees(OutReader(t), OutDirectory(t), 0);
  }
}

=== FILE: roundtrip.dfy ===
/** Reading a copy back: the trace `copy_tree` writes for one node, laid
    out as a file with one tag per record, is rebuilt by `make_dir_tree`
    into the same tree, with the identities re-keyed the way the copier
    re-keys them. */
module RoundTrip {
  import opened Wrappers
  import opened Fiff
  import opened DirTree
  import opened CopyTree
  import opened Find
  import opened ReadBack
  import opened Bounds

  /** What copying `n` promises the reader: the same block kinds and shape;
      a node that had an id gets the output id as its own and its old id
      as its parent; its records are the re-keyed identity followed by the
      passed-through tags, nothing of its descendants. */
  function Expected(src: seq<byte>, inId: Option<Ident>, n: Node): Image
    decreases n, 1
  {
    Image(n.block, if n.id.Some? then inId else None, n.id,
          IdEvents(inId, n) + OwnEntries(src, n).events, ExpectedAll(src, inId, n.children))
  }

  function ExpectedAll(src: seq<byte>, inId: Option<Ident>, ns: seq<Node>): (es: seq<Image>)
    ensures |es| == |ns|
    decreases ns, 0
  {
    seq(|ns|, i requires 0 <= i < |ns| => Expected(src, inId, ns[i]))
  }

  /** The trees the round trip holds for: no block of kind 0 (a start
      record of kind 0 would be read back as the file-level root), no
      sentinel among the entries, and every readable tag header agreeing
      with its descriptor on the kind. */
  predicate Copyable(src: seq<byte>, n: Node) {
    && n.block != 0
    && (forall e :: e in Entries(n) ==> !IsSentinel(e) && (Readable(src, e) ==> HeaderAt(src, e).kind == e.kind))
    && forall i :: 0 <= i < |n.children| ==> Copyable(src, n.children[i])
  }

  /** The copier keeps entries of the directory and nothing else. */
  lemma {:induction false} KeptFrom(es: seq<Descriptor>)
    ensures forall i :: 0 <= i < |Kept(es)| ==> Kept(es)[i] in es
  {
    if |es| > 0 {
      KeptFrom(es[1..]);
      assert forall e :: e in es[1..] ==> e in es;
    }
  }

  /** With headers that agree with the directory, the copier passes
      through only raw tags of plain kinds, none of them re-keyed. */
  lemma OwnRecordsArePlain(src: seq<byte>, n: Node)
    requires Copyable(src, n) && OwnEntries(src, n).failure.None?
    ensures forall x :: 0 <= x < |OwnEntries(src, n).events| ==>
      && OwnEntries(src, n).events[x].Raw?
      && !IsRekeyed(OwnEntries(src, n).events[x].kind)
      && IsRecord(OwnEntries(src, n).events[x])
  {
    if n.directory.Some? {
      var es := n.directory.value;
      var w := Passthrough(src, es);
      PassthroughCopies(src, es);
      KeptFrom(es);
      forall x | 0 <= x < |w.events|
        ensures w.events[x].Raw? && !IsRekeyed(w.events[x].kind) && IsRecord(w.events[x])
      {
        var e := Kept(es)[x];
        assert e in Entries(n);
        assert Readable(src, e);
        assert w.events[x] == RawOf(ReadTagAt(src, e.pos).value);
        assert ReadTagAt(src, e.pos).value.0 == HeaderAt(src, e);
      }
    }
  }

  /** The identity records of a copied node, with a given output id: the
      parent file id, the output id and the old id, or none at all. */
  lemma IdsLegal(inId: Option<Ident>, n: Node)
    requires inId.Some?
    ensures forall j :: 0 <= j < |IdEvents(inId, n)| ==> Legal(IdEvents(inId, n)[j])
    ensures LastId(IdEvents(inId, n), BLOCK_ID) == (if n.id.Some? then inId else None)
    ensures LastId(IdEvents(inId, n), PARENT_BLOCK_ID) == n.id
  {
    var ids := IdEvents(inId, n);
    if n.id.Some? {
      assert ids == [WriteId(PARENT_FILE_ID, inId), WriteId(BLOCK_ID, inId), WriteId(PARENT_BLOCK_ID, n.id)];
      assert ids[..2] == [WriteId(PARENT_FILE_ID, inId), WriteId(BLOCK_ID, inId)];
    }
  }

  /** Records that are not identity records of a kind leave the last
      identity of that kind as it was. */
  lemma {:induction false} LastIdSkip(a: seq<Event>, b: seq<Event>, kind: int)
    requires forall j :: 0 <= j < |b| ==> b[j].Raw?
    ensures LastId(a + b, kind) == LastId(a, kind)
    decreases |b|
  {
    if |b| == 0 {
      assert a + b == a;
    } else {
      assert (a + b)[..|a + b| - 1] == a + b[..|b| - 1];
      LastIdSkip(a, b[..|b| - 1], kind);
    }
  }

  /** A successful copy of a node lies entirely inside a successful copy
      of the list it belongs to. */
  lemma {:induction false} CopyAllEach(src: seq<byte>, inId: Option<Ident>, ns: seq<Node>)
    requires CopyAll(src, inId, ns).failure.None?
    ensures forall i :: 0 <= i < |ns| ==> CopyNode(src, inId, ns[i]).failure.None?
  {
    if |ns| > 0 {
      CopyAllParts(src, inId, ns);
      CopyAllEach(src, inId, ns[1..]);
      assert forall i :: 1 <= i < |ns| ==> ns[i] == ns[1..][i - 1];
    }
  }

  /** The records written for a node are legal and carry the re-keyed
      identity: the output id as the block id (when the node had one) and
      the old id as the parent block id. */
  lemma OwnRecordsRead(src: seq<byte>, inId: Option<Ident>, n: Node)
    requires inId.Some? && Copyable(src, n) && OwnEntries(src, n).failure.None?
    ensures forall j :: 0 <= j < |IdEvents(inId, n) + OwnEntries(src, n).events| ==>
      Legal((IdEvents(inId, n) + OwnEntries(src, n).events)[j])
    ensures LastId(IdEvents(inId, n) + OwnEntries(src, n).events, BLOCK_ID) == (if n.id.Some? then inId else None)
    ensures LastId(IdEvents(inId, n) + OwnEntries(src, n).events, PARENT_BLOCK_ID) == n.id
  {
    OwnRecordsArePlain(src, n);
    IdsLegal(inId, n);
    RecordsJoin(IdEvents(inId, n), OwnEntries(src, n).events);
  }

  /** Identity records followed by plain raw records: all legal, and the
      identities are those of the identity records. */
  lemma RecordsJoin(ids: seq<Event>, raws: seq<Event>)
    requires forall j :: 0 <= j < |ids| ==> Legal(ids[j])
    requires forall x :: 0 <= x < |raws| ==> raws[x].Raw? && !IsRekeyed(raws[x].kind) && IsRecord(raws[x])
    ensures forall j :: 0 <= j < |ids + raws| ==> Legal((ids + raws)[j])
    ensures LastId(ids + raws, BLOCK_ID) == LastId(ids, BLOCK_ID)
    ensures LastId(ids + raws, PARENT_BLOCK_ID) == LastId(ids, PARENT_BLOCK_ID)
  {
    forall j | 0 <= j < |ids + raws| ensures Legal((ids + raws)[j]) {
      if j >= |ids| {
        assert (ids + raws)[j] == raws[j - |ids|];
      }
    }
    LastIdSkip(ids, raws, BLOCK_ID);
    LastIdSkip(ids, raws, PARENT_BLOCK_ID);
  }

  /** What a successful copy of a node promises can be read back: it is
      legible, and reading it back changes nothing. */
  lemma {:induction false} ExpectedIsRead(src: seq<byte>, inId: Option<Ident>, n: Node)
    requires inId.Some? && Copyable(src, n) && CopyNode(src, inId, n).failure.None?
    ensures Legible(Expected(src, inId, n)) && Read(Expected(src, inId, n)) == Expected(src, inId, n)
    decreases n, 1
  {
    CopyNodeParts(src, inId, n);
    OwnRecordsRead(src, inId, n);
    CopyAllEach(src, inId, n.children);
    ExpectedAllIsRead(src, inId, n.children);
  }

  lemma {:induction false} ExpectedAllIsRead(src: seq<byte>, inId: Option<Ident>, ns: seq<Node>)
    requires inId.Some?
    requires forall i :: 0 <= i < |ns| ==> Copyable(src, ns[i]) && CopyNode(src, inId, ns[i]).failure.None?
    ensures forall i :: 0 <= i < |ns| ==> Legible(ExpectedAll(src, inId, ns)[i])
    ensures ReadAll(ExpectedAll(src, inId, ns)) == ExpectedAll(src, inId, ns)
    decreases ns, 0
  {
    forall i | 0 <= i < |ns|
      ensures Legible(ExpectedAll(src, inId, ns)[i])
      ensures Read(ExpectedAll(src, inId, ns)[i]) == ExpectedAll(src, inId, ns)[i]
    {
      ExpectedIsRead(src, inId, ns[i]);
    }
  }

  /** A successful copy of a node writes exactly the trace of the image it
      promises. */
  lemma {:induction false} CopyEmits(src: seq<byte>, inId: Option<Ident>, n: Node)
    requires CopyNode(src, inId, n).failure.None?
    ensures CopyNode(src, inId, n).events == Emit(Expected(src, inId, n))
    decreases n, 1
  {
    CopyNodeParts(src, inId, n);
    CopyAllEmits(src, inId, n.children);
    EmitParts(Expected(src, inId, n), IdEvents(inId, n), OwnEntries(src, n).events, CopyAll(src, inId, n.children).events);
  }

  /** The trace of an image whose records are laid out in two runs. */
  lemma EmitParts(img: Image, ids: seq<Event>, raws: seq<Event>, kids: seq<Event>)
    requires img.records == ids + raws && EmitAll(img.children) == kids
    ensures Emit(img) == ([StartBlock(img.block)] + ids) + raws + kids + [EndBlock(img.block)]
  {
    assert [StartBlock(img.block)] + ids + raws == [StartBlock(img.block)] + (ids + raws);
  }

  lemma {:induction false} CopyAllEmits(src: seq<byte>, inId: Option<Ident>, ns: seq<Node>)
    requires CopyAll(src, inId, ns).failure.None?
    ensures CopyAll(src, inId, ns).events == EmitAll(ExpectedAll(src, inId, ns))
    decreases ns, 0
  {
    if |ns| == 0 {
      assert ExpectedAll(src, inId, ns) == [];
    } else {
      CopyAllParts(src, inId, ns);
      CopyEmits(src, inId, ns[0]);
      CopyAllEmits(src, inId, ns[1..]);
      assert ExpectedAll(src, inId, ns)[1..] == ExpectedAll(src, inId, ns[1..]);
    }
  }

  /** Copying a node and building a tree from the written trace gives
      back the node: `make_dir_tree` from the first record succeeds, stops
      at the last record, and finds every block with its kind, its entries
      in order and its children in order, the ids re-keyed to the output
      id with the old id as parent id.  The clipped builder returns the
      same. */
  lemma CopyThenRebuild(src: seq<byte>, inId: Option<Ident>, n: Node)
    requires inId.Some? && Copyable(src, n)
    requires CopyTree.CopyTree(src, inId, One(n)).failure.None?
    ensures var t := CopyTree.CopyTree(src, inId, One(n)).events;
      var res := MakeDirTree(OutReader(t), OutDirectory(t), 0);
      && res.Success?
      && res.value.1 == |t| - 1
      && View(t, res.value.0) == Expected(src, inId, n)
      && MakeDirTreeClipped(OutReader(t), OutDirectory(t), 0) == res
  {
    assert CopyAll(src, inId, [n]) == Then(CopyNode(src, inId, n), Nothing);
    assert CopyTree.CopyTree(src, inId, One(n)).events == CopyNode(src, inId, n).events;
    CopyEmits(src, inId, n);
    ExpectedIsRead(src, inId, n);
    ReadsBackImage(Expected(src, inId, n));
  }
}

=== FILE: wrappers.dfy ===
/** Optional values, and results that carry either a value or an error. */
module Wrappers {

  /** A value that may be absent. */
  datatype Option<+T> = None | Some(value: T)

  /** The outcome of an operation that can fail with an error of type E. */
  datatype Result<+T, +E> = Success(value: T) | Failure(error: E)
}
